=== FILE: README.md ===
# Minds Go SDK — a Dafny model of the client core

This project models the core of the Go client for the Minds service (a
MindsDB deployment) and proves properties about it. The core is four files:
`rest_api.go`, `exceptions.go`, `datasources.go` and `minds.go`. They cover
five things:

- The **REST layer**. `NewRestAPI` normalises the base URL, `_headers` builds
  the bearer-token header, and `_raiseForStatus` translates HTTP statuses
  into typed errors.
- The five **error kinds** and their rendered messages.
- The **datasource manager**: create (optionally replacing), list (dropping
  records that are not SQL datasources), get and drop.
- The **mind manager**: create (optionally replacing), list, get and drop.
  Datasource references are resolved by `_checkDatasource`, which may
  provision a datasource on the fly.
- The **mind handle**: `Update`, `AddDatasource` and `DelDatasource`, plus the
  completion-host rewrite done by `Completion`.

The network is an explicit environment (`Server.Net`) with three parts:
- A JSON document store: datasources, and each project's minds.
- A *script* of injected replies, one entry consumed per request. A `Some`
  entry overrides the server's answer, so transport failures and arbitrary
  statuses can be fed to the client. An empty script is a fault-free server.
- A log of every request issued.

Every manager operation is a pure function from a `Net` to an `Outcome` (the
`Net` afterwards plus a `Result`). So call order ("GET, then one DELETE, then
the POST") is a statement about the log, and "what you create is what you
read back" is a statement about the store.

Files and modules:
- `wrappers.dfy` — `Wrappers`: `Option` and `Result`.
- `json.dfy` — `Json`: JSON values and the Go `encoding/json` field rules the
  records use. An absent or null member gives the zero value; a wrong type is
  an error.
- `exceptions.dfy` — `Exceptions`: the five API error kinds, their rendering
  and its inverse. Also the client error type, with `Wrapped` for
  `fmt.Errorf("…: %w")`, and the two not-found tests.
- `rest_api.dfy`, `rest_api_facts.dfy` — `RestApi`, `RestApiFacts`.
- `server.dfy` — `Server`: the environment described above.
- `datasources.dfy`, `datasource_facts.dfy` — `Datasources`, `DatasourceFacts`.
- `minds.dfy`, `mind_facts.dfy` — `Minds`, `MindFacts`.

Wiring. Every helper calls `_raiseForStatus` on the response
(rest_api.go:54, 69, 89, 109) but drops its result. `RestApi.CallAsWritten`
models the code as written. `RestApi.Call` returns the translated error; the
managers' `ObjectNotFound` branches only make sense with it. All the managers
use `Call` (see Findings).

Not-found test. `Datasources.Create` and `Minds.Create` with replace, and
`_checkDatasource` for a config, branch on `err.(*ObjectNotFound)`
(datasources.go:44, minds.go:268, minds.go:298). `Get` has wrapped that error
with `%w`, so as written the assertion never matches and those paths abort
(`Exceptions.IsNotFoundAssertion`, `DatasourceFacts.GetNeverBareNotFound`).
The managers here use the `errors.As`-style `Exceptions.IsNotFound`, which
looks through the wrapping (see Findings). The rows for
`DatasourceFacts.CreateReplaceNotFoundTrace`, `DatasourceFacts.CreateReplaceAbsent`,
`MindFacts.CheckConfigNotFound`, `MindFacts.CheckConfigProvisions`,
`MindFacts.CreateReplaceNotFoundTrace` and `MindFacts.CreateReplaceAbsent`
describe that corrected branch, not the code as written.

## Model

| member | source | states |
|---|---|---|
| Exceptions.Render | go_sdk/minds/exceptions.go:10-48 | Each kind renders as its own fixed prefix ("Object not found: ", "Object not supported: ", "Forbidden: ", "Unauthorized: ", "Unknown error: ") followed by the message. |
| Exceptions.Parse | go_sdk/minds/exceptions.go:10-48 | Any text it accepts is exactly the rendering of the error it returns. |
| Exceptions.PrefixFree | go_sdk/minds/exceptions.go:10-48 | No kind's prefix is a prefix of another kind's, so the kind can be read off the text. |
| Exceptions.ParseRender | go_sdk/minds/exceptions.go:10-48 | Parsing a rendered error gives back that error (kind and message). |
| Exceptions.RenderInjective | go_sdk/minds/exceptions.go:10-48 | Different errors render to different texts. |
| Exceptions.IsNotFoundIffRoot | go_sdk/minds/datasources.go:44-48 | The unwrapping not-found test holds exactly when the innermost error of a `%w` chain is a bare not-found. |
| RestApi.WithDefault | go_sdk/minds/rest_api.go:20-22 | An empty base URL becomes "https://mdb.ai"; any other URL is kept. |
| RestApi.WithSlash | go_sdk/minds/rest_api.go:23-25 | The result ends in '/' and extends the input by at most that '/'. |
| RestApi.NewRestApi | go_sdk/minds/rest_api.go:19-35 | As written: the key is kept and "api/" is always appended to the slashed URL. It panics (None) exactly when the slashed URL is shorter than four UTF-8 bytes (Go's `len`). |
| RestApi.Utf8Len | go_sdk/minds/rest_api.go:26 | Go's `len` of a string: at least one and at most four bytes per character, and one per character exactly when all are ASCII. |
| RestApiFacts.NewRestApiDefault | go_sdk/minds/rest_api.go:20-28 | An empty base URL gives "https://mdb.ai/api/". |
| RestApiFacts.NewRestApiCountsBytes | go_sdk/minds/rest_api.go:26 | The panic edge counts bytes: "éé" (two characters, four bytes) is accepted as "éé/api/", while "ab" panics. |
| RestApiFacts.NewRestApiExtends | go_sdk/minds/rest_api.go:19-28 | The (defaulted) input URL is a prefix of the result, which ends in "api/". |
| RestApiFacts.NewRestApiDuplicatesApi | go_sdk/minds/rest_api.go:26-28 | As written, "https://mdb.ai/api/" becomes "https://mdb.ai/api/api/". |
| RestApiFacts.NewRestApiNotIdempotent | go_sdk/minds/rest_api.go:26-28 | As written, normalising an already normalised URL changes it again. |
| RestApi.NormalizeIntended | go_sdk/minds/rest_api.go:26-28 | The intended normalisation ends in "/api/", extends the slashed URL, and leaves a URL already ending in "/api/" alone. |
| RestApi.NewRestApiIntended | go_sdk/minds/rest_api.go:19-35 | The intended constructor keeps the key and never panics; its base URL ends in "/api/". |
| RestApiFacts.NormalizeIntendedIdempotent | go_sdk/minds/rest_api.go:26-28 | The intended normalisation is idempotent. |
| RestApiFacts.NormalizeAgreesOffApi | go_sdk/minds/rest_api.go:19-28 | As written and intended agree on every URL that does not already end in "/api/". |
| RestApi.Headers | go_sdk/minds/rest_api.go:37-41 | Exactly one header, Authorization. |
| RestApiFacts.HeadersCarryKey | go_sdk/minds/rest_api.go:37-41 | The Authorization value is "Bearer " + key, and the key can be read back from it. |
| RestApi.RaiseForStatus | go_sdk/minds/rest_api.go:113-134 | An error exactly for codes in [400, 600). 404, 403 and 401 give their own kinds carrying the body; any other such code gives an unknown error carrying "status: body". |
| RestApiFacts.RaiseForStatusInverse | go_sdk/minds/rest_api.go:113-134 | Read backwards: each produced error pins its code (or range) and carries the body verbatim. No status ever gives "not supported". |
| RestApi.CallAsWritten | go_sdk/minds/rest_api.go:43-56 | As written: every delivered response is a success; only transport failures are errors. |
| RestApi.Call | go_sdk/minds/rest_api.go:113-134 | With the translator applied: a transport failure passes through, an error status becomes its typed error, anything else is the response. A successful call never has a status in [400, 600). |
| RestApiFacts.CallAsWrittenPassesErrors | go_sdk/minds/rest_api.go:49-55 | As written, any error status comes back as a success, where the translator would have reported a typed error. |
| RestApiFacts.CallAgreesBelowErrors | go_sdk/minds/rest_api.go:49-55 | The two wirings agree exactly on transport failures and on statuses outside [400, 600). |
| RestApiFacts.CallAsWrittenAcceptsNotFound | go_sdk/minds/rest_api.go:113-117 | Concrete case: a 404 passes as written, but with the translator it is ObjectNotFound carrying the body. |
| Json.StringField | go_sdk/minds/datasources.go:11-14 | A string member unmarshals into a Go string field as itself. |
| Json.Strings | go_sdk/minds/datasources.go:16 | Marshalling a []string keeps its length and gives each element as a JSON string. |
| Json.StringsOf | go_sdk/minds/datasources.go:16 | Unmarshalling a JSON array into a []string keeps its length. |
| Json.StringsRoundTrip | go_sdk/minds/datasources.go:16 | A marshalled []string unmarshals back to itself. |
| Json.StringValues | go_sdk/minds/datasources.go:15 | Marshalling a map[string]string keeps its keys and gives each value as a JSON string. |
| Json.StringMapRoundTrip | go_sdk/minds/datasources.go:15 | A marshalled map[string]string unmarshals back to itself. |
| Json.ObjectField | go_sdk/minds/minds.go:25 | An object member unmarshals into a map[string]interface{} field as its members. |
| Datasources.Encode | go_sdk/minds/datasources.go:11-17 | The JSON form always carries the name and the engine as strings. |
| DatasourceFacts.DecodeEncode | go_sdk/minds/datasources.go:11-20 | A config marshals and unmarshals back to the same `Datasource`. |
| Datasources.GetDecode | go_sdk/minds/datasources.go:100-127 | A helper error is returned wrapped as "error getting datasource"; a datasource comes back only from a successful call. |
| Datasources.GetResult | go_sdk/minds/datasources.go:100-127 | `Get` succeeds only when the call itself succeeded. |
| Datasources.Get | go_sdk/minds/datasources.go:100-104 | Exactly one GET of the name; it never changes the server. |
| DatasourceFacts.GetAsWrittenOn404 | go_sdk/minds/datasources.go:100-113 | As written, a 404 reaches the decoding: a non-JSON body is "error decoding datasource response", a JSON error body without a string "engine" is "not supported", and neither is a not-found. With the translated error returned, a 404 is "error getting datasource" wrapping ObjectNotFound. |
| DatasourceFacts.GetNeverBareNotFound | go_sdk/minds/datasources.go:100-104 | Whatever the reply, `Get` never returns a bare not-found, so the type assertion at line 44 never matches what it returns. |
| DatasourceFacts.GetAbsentIsNotFound | go_sdk/minds/datasources.go:100-104 | On a fault-free server, a missing name is a wrapped not-found. The unwrapping test sees it; the type assertion does not. |
| DatasourceFacts.GetUnsupportedRecord | go_sdk/minds/datasources.go:111-114 | A record without a string engine (or null) gives "not supported: wrong type of datasource: name", never a not-found. |
| DatasourceFacts.GetStoredUnsupported | go_sdk/minds/datasources.go:111-114 | On a fault-free server, a stored record without a string engine makes `Get` report "not supported". |
| DatasourceFacts.GetStored | go_sdk/minds/datasources.go:100-127 | On a fault-free server, `Get` of a stored supported record returns that record's decoding. |
| Datasources.DropResult | go_sdk/minds/datasources.go:130-141 | `Drop` succeeds exactly when the DELETE was delivered with status 200. |
| Datasources.Drop | go_sdk/minds/datasources.go:130-141 | Exactly one DELETE of the name. |
| DatasourceFacts.DropSucceedsIff200 | go_sdk/minds/datasources.go:130-141 | `Drop` succeeds exactly when the DELETE's reply was delivered with 200. |
| DatasourceFacts.DropFaultFree | go_sdk/minds/datasources.go:130-141 | Fault-free server: dropping succeeds exactly when the data source is stored; afterwards it is gone, nothing else stored changes, and dropping an absent one is a wrapped not-found. |
| Datasources.PostAndFetch | go_sdk/minds/datasources.go:51-62 | The POST of the config's JSON comes first. |
| DatasourceFacts.PostAndFetchResult | go_sdk/minds/datasources.go:51-62 | A transport or translated error is wrapped as "error creating datasource"; a non-200 is an unexpected status; otherwise the result is exactly a GET of the name. |
| Datasources.Create | go_sdk/minds/datasources.go:35-63 | Only appends to the request log; a fault-free server stays fault-free. |
| DatasourceFacts.CreateNoReplaceTrace | go_sdk/minds/datasources.go:35-63 | Without replace, the POST is the first request, followed by at most the GET: no lookup and no DELETE. |
| DatasourceFacts.CreateReplaceFoundTrace | go_sdk/minds/datasources.go:36-43 | With replace and an existing datasource: GET, then exactly one DELETE. A failed DELETE ends the call with "error replacing datasource". Otherwise the POST follows and no further DELETE is issued. |
| DatasourceFacts.CreateReplaceNotFoundTrace | go_sdk/minds/datasources.go:36-51 | With replace and a not-found: GET, then the POST, and no DELETE anywhere. |
| DatasourceFacts.CreateReplaceOtherErrorTrace | go_sdk/minds/datasources.go:44-47 | With replace and any other error: only the GET, and the error comes back wrapped as "error checking for existing datasource". |
| DatasourceFacts.CreateReturnsRefetch | go_sdk/minds/datasources.go:51-62 | A successful create ends with the POST of the config followed by a GET of its name. |
| DatasourceFacts.CreateFrame | go_sdk/minds/datasources.go:35-63 | Whatever the server answers, `Create` touches no datasource but its own and no mind. |
| DatasourceFacts.CreateIssuesOnlyDatasourceRequests | go_sdk/minds/datasources.go:35-63 | `Create` only ever calls the datasource endpoints. |
| DatasourceFacts.CreateThenGet | go_sdk/minds/datasources.go:51-62 | Fault-free server, new name: the result is the config itself, the requests are POST then GET, and the store gains exactly that record. |
| DatasourceFacts.CreateReplaceAbsent | go_sdk/minds/datasources.go:35-62 | Fault-free server, replace of a missing datasource: GET, POST, GET, and the config comes back. |
| DatasourceFacts.CreateReplaceExisting | go_sdk/minds/datasources.go:35-62 | Fault-free server, replace of a readable datasource: GET, DELETE, POST, GET, and the new config comes back. |
| Datasources.SupportedRecords | go_sdk/minds/datasources.go:78-83 | Every kept record has a string engine. |
| DatasourceFacts.SupportedRecordsInOrder | go_sdk/minds/datasources.go:77-96 | The kept records are a subsequence of the listing: server order is kept. |
| DatasourceFacts.SupportedRecordsExact | go_sdk/minds/datasources.go:78-83 | A record is kept exactly when it is in the listing and has a string engine, as many times as the listing has it. |
| Datasources.DecodeSupported | go_sdk/minds/datasources.go:77-96 | On success, one datasource per kept record, each the decoding of that record. |
| DatasourceFacts.DecodeSupportedSucceedsIff | go_sdk/minds/datasources.go:84-93 | The listing decodes exactly when every kept record decodes. |
| Datasources.ListResult | go_sdk/minds/datasources.go:66-97 | `List` succeeds only when the call succeeded. |
| Datasources.List | go_sdk/minds/datasources.go:66-70 | Exactly one GET of the collection; the server is unchanged. |
| DatasourceFacts.ListKeepsOrder | go_sdk/minds/datasources.go:66-97 | A successful listing returns each kept record's decoding, in server order. |
| MindFacts.DecodeEncode | go_sdk/minds/minds.go:16-29 | A mind marshals and unmarshals back to itself. |
| Minds.GetResult | go_sdk/minds/minds.go:244-258 | `Minds.Get` succeeds only when the call succeeded. |
| Minds.Get | go_sdk/minds/minds.go:244-248 | Exactly one GET in the "mindsdb" project; the server is unchanged. |
| MindFacts.GetStoredMind | go_sdk/minds/minds.go:244-258 | Fault-free server: `Get` of a stored, decodable record returns its decoding. |
| MindFacts.GetAbsentMindIsNotFound | go_sdk/minds/minds.go:244-248 | Fault-free server, missing name: a wrapped not-found, which the type assertion misses. |
| Minds.DecodeAll | go_sdk/minds/minds.go:234-237 | On success, one mind per listed element. |
| MindFacts.DecodeAllSucceedsIff | go_sdk/minds/minds.go:234-237 | Decoding a listing succeeds exactly when every element is a decodable object, and then gives each element's mind in order. |
| Minds.List | go_sdk/minds/minds.go:227-242 | Exactly one GET of the project's minds; the server is unchanged. |
| MindFacts.ListFaultFree | go_sdk/minds/minds.go:227-242 | Fault-free server: `List` succeeds exactly when every stored mind decodes, and then returns them all in listing order. |
| Minds.Drop | go_sdk/minds/minds.go:356-367 | Exactly one DELETE; success exactly when it was delivered with 200. |
| MindFacts.DropFaultFree | go_sdk/minds/minds.go:356-367 | Fault-free server: dropping succeeds exactly when the project holds the mind; afterwards it holds it no longer and nothing else stored changes; dropping an absent mind is a wrapped not-found. |
| Minds.CheckDatasource | go_sdk/minds/minds.go:260-280 | A resolved name is the reference's own name. A refused type is rejected with its type name, before any request. |
| MindFacts.CheckNameOrHandle | go_sdk/minds/minds.go:261-265 | A name or a `*Datasource` resolves to its name without any request. |
| MindFacts.CheckConfigFound | go_sdk/minds/minds.go:266-276 | A config the server has: exactly one GET, and the config's name. |
| MindFacts.CheckConfigNotFound | go_sdk/minds/minds.go:266-271 | A config reported not found is created without replace: GET, then POST, no DELETE. Resolution succeeds exactly when the creation does. |
| MindFacts.CheckConfigOtherError | go_sdk/minds/minds.go:272-274 | Any other lookup error ends resolution after the GET, wrapped as "error checking for existing datasource". |
| MindFacts.CheckConfigProvisions | go_sdk/minds/minds.go:266-276 | Fault-free server, missing config: GET, POST, GET; the config's name; and the store gains the config's record. |
| MindFacts.CheckOnlyDatasourceRequests | go_sdk/minds/minds.go:260-280 | Resolving one reference only calls the datasource endpoints. |
| Minds.ResolveAll | go_sdk/minds/minds.go:315-325 | On success, one name per reference, in order, each the reference's own name. |
| MindFacts.ResolveOnlyDatasourceRequests | go_sdk/minds/minds.go:315-325 | Resolving a list only calls the datasource endpoints. |
| MindFacts.ResolveNamesOnly | go_sdk/minds/minds.go:315-325 | A list of names and handles resolves without any request. |
| MindFacts.ResolveStopsAtRefused | go_sdk/minds/minds.go:317-321 | Resolution stops at the first refused reference; with only names and handles before it, nothing is sent and the error names its type. |
| MindFacts.CreatePayloadShape | go_sdk/minds/minds.go:303-341 | The create body always has the name. Model, provider and datasources appear exactly when given. Parameters are the caller's entries with "prompt_template" set to the given template, or to "{{input}}". |
| MindFacts.CreatePayloadNilOptions | go_sdk/minds/minds.go:307-341 | Nil options and all-nil options give the same body. |
| Minds.Submit | go_sdk/minds/minds.go:303-353 | Only appends to the request log. |
| MindFacts.SubmitTrace | go_sdk/minds/minds.go:315-353 | Resolution first, using datasource requests only; its error stops before any mind request. Then one POST of the create body. Success requires a 201 and is exactly the GET that follows. |
| MindFacts.SubmitMindRequests | go_sdk/minds/minds.go:303-353 | Creating never deletes a mind; its only mind GET is the last request, right after the POST. |
| Minds.Create | go_sdk/minds/minds.go:290-354 | Only appends to the request log. |
| MindFacts.CreateNoReplaceTrace | go_sdk/minds/minds.go:290-354 | Without replace: no DELETE, and no mind GET before the POST. |
| MindFacts.CreateReplaceFoundTrace | go_sdk/minds/minds.go:290-297 | With replace and an existing mind: GET, then exactly one DELETE. A failed DELETE ends the call with "error replacing mind"; a successful one goes on to the submission (resolution, POST, re-fetch) on the server it left, with no further DELETE. |
| MindFacts.CreateReplaceNotFoundTrace | go_sdk/minds/minds.go:291-301 | With replace and a not-found: the GET, then the submission (resolution, POST, re-fetch) on the server the GET left, and no DELETE anywhere. |
| MindFacts.CreateReplaceOtherErrorTrace | go_sdk/minds/minds.go:298-300 | With replace and any other error: only the GET, and the error wrapped as "error checking for existing mind". |
| MindFacts.SubmitReturnsRefetch | go_sdk/minds/minds.go:343-353 | A successful submit ends with the POST of a body carrying the name, then a GET of that name. |
| MindFacts.CreateReturnsRefetch | go_sdk/minds/minds.go:343-353 | A successful create ends with the POST of a body carrying the name, then a GET of that name. |
| MindFacts.PostFreshMind | go_sdk/minds/minds.go:343-352 | Fault-free server, free name: the POST is answered 201 and the project's table gains the body tagged with its project. |
| MindFacts.DecodeStoredRecord | go_sdk/minds/minds.go:16-29 | The stored record of a created mind decodes to its project, name, model, provider, parameters and datasource names. |
| MindFacts.CreateReplaceAbsent | go_sdk/minds/minds.go:290-354 | Fault-free server, absent mind, names or handles only: replace gives GET, POST of the payload, GET, and the mind read back is the one created. |
| MindFacts.CreateReplaceExisting | go_sdk/minds/minds.go:290-354 | Fault-free server, readable stored mind, names or handles only: replace gives GET, DELETE, POST of the payload, GET, and the mind read back is the one created. |
| MindFacts.CreateThenGet | go_sdk/minds/minds.go:290-354 | Fault-free server, new mind, names or handles only: POST then GET. The mind read back has the project, name, model and provider ("" when not given), the caller's parameters with the prompt template (default "{{input}}"), and the datasource names in order. |
| MindFacts.UpdatePayloadShape | go_sdk/minds/minds.go:33-64 | The PATCH body has exactly the given fields, and always the parameters: the given map, else the handle's. "prompt_template" is overridden when a template is given. |
| Minds.Update | go_sdk/minds/minds.go:32-80 | Only appends to the request log. |
| MindFacts.UpdateHandleEffect | go_sdk/minds/minds.go:57-78 | Only the handle's name and parameters change. A resolution error changes nothing. Without given parameters, the handle's parameters become the map sent. The new name is taken only on success. |
| MindFacts.UpdateTrace | go_sdk/minds/minds.go:32-80 | Only datasource requests, then one PATCH of the handle's own project and name with the update body. No mind GET: the handle is not refreshed. |
| MindFacts.UpdateRenameAgrees | go_sdk/minds/minds.go:47-78 | Fault-free server, rename to a free name: success, and handle and server agree on the new name (the old one is gone). |
| Minds.Refresh | go_sdk/minds/minds.go:97-115 | The sub-resource request is the first request issued; a fault-free server stays fault-free. |
| Minds.AddDatasource | go_sdk/minds/minds.go:91-116 | Only appends to the request log; a fault-free server stays fault-free. |
| Minds.DelDatasource | go_sdk/minds/minds.go:118-147 | Only appends to the request log; a fault-free server stays fault-free. |
| MindFacts.MutationsTouchOnlyDatasources | go_sdk/minds/minds.go:91-147 | Attach and detach change only the handle's datasources, and nothing on error. |
| MindFacts.AddDatasourceRefetches | go_sdk/minds/minds.go:91-116 | On success, the attach of the resolved name is followed by a GET of the mind, and the handle takes the datasources that GET returns on the server state the request before it left. |
| MindFacts.DelDatasourceRefuses | go_sdk/minds/minds.go:118-127 | Anything but a name or a `*Datasource` is refused with its type name, before any request. |
| MindFacts.DelDatasourceRefetches | go_sdk/minds/minds.go:118-147 | On success the requests are exactly the detach and the GET, and the handle takes the datasources that GET returns on the server state the request before it left. |
| MindFacts.RefreshAgreesWithServer | go_sdk/minds/minds.go:110-115 | Fault-free server: after a successful refresh, another `Get` reports the datasources the handle holds. |
| MindFacts.AddDatasourceAgreesWithServer | go_sdk/minds/minds.go:91-116 | Fault-free server: after a successful attach, the handle agrees with a fresh read of the mind. |
| MindFacts.DelDatasourceAgreesWithServer | go_sdk/minds/minds.go:118-147 | Fault-free server: after a successful detach, the handle agrees with a fresh read of the mind. |
| Minds.CompletionUrl | go_sdk/minds/minds.go:150-163 | The completion URL keeps the scheme and clears the path. Its host is "llm.mdb.ai" for the hosted API host "mdb.ai" and "ai." + host for any other, and it leads back to the API host. |
| MindFacts.LlmHostInverse | go_sdk/minds/minds.go:155-160 | The API host can be recovered from the completion host ("llm.mdb.ai" for "mdb.ai", else "ai." + host). |
| MindFacts.LlmHostInjective | go_sdk/minds/minds.go:155-160 | Different API hosts get different completion hosts. |
| MindFacts.LlmHostDiffers | go_sdk/minds/minds.go:155-160 | The completion host is never the API host itself. |

## Left out

- HTTP and JSON text. Requests and responses are values (`RestApi.Request`, `RestApi.Response` with the body already decoded). The URL paths are given in comments beside each request. Marshal errors on maps of `interface{}`, the Content-Type header and the `http.Client` are not modelled.
- The body closed before decoding. Each helper closes the body (`defer resp.Body.Close()`) before returning the response, and the managers then decode that body. The model treats the body as readable. Otherwise every decode as written would fail and nothing past the request would be worth stating.
- `Json`: numbers are integers. Go decodes JSON numbers in `parameters` as float64 (a temperature of 0.7, say), which `Json.Value` cannot represent; no operation here reads a number.
- Request paths: names are put into URL paths without escaping, so a "/" or "?" in a name changes the request Go sends. The model keeps names opaque inside `RestApi.Request`.
- `Json`: member names match exactly. Go's case-insensitive key matching is not modelled, nor is the difference between a nil and an empty map or slice (both are the empty value here).
- Minds.Update: two things are left out. One is the panic when the handle's parameters map is nil (a mind read without "parameters") and only a template is given. The other is the write of the template into the caller's own map when parameters are given. The handle's shared map is modelled (`Minds.Aliased`).
- `Minds.List`: a JSON null element in the listing (Go decodes it to a nil `*Mind` and then panics setting its client) is treated as a decode error.
- The handle's connection. `Minds.Get` and `Minds.List` set a handle's `client` but never its `api` field (minds.go:239, minds.go:256). As written, `Update`, `AddDatasource`, `DelDatasource` and `Completion` on such a handle would dereference nil. The model gives every handle the manager's connection, and treats the back-references as context, not state.
- `Minds.CompletionUrl`: `Url` holds only the scheme, host and path. The query, fragment and user information that Go's `parsedURL.String()` keeps (minds.go:161-165) are not modelled.
- `Completion`: URL parsing (`url.Parse` errors) and the chat-completion calls, streamed or not, go to an external OpenAI client. Only the host rewrite is modelled (`Minds.CompletionUrl`).
- client.go, base_usage.go and datasource_examples.go (wiring and usage examples) are not part of this model.
- Concurrency: the client is used by one caller at a time here.
- `Server`: the server's behaviour is an assumption stated as a model, not the service's code. It answers 404 for missing names, 409 for duplicates, 400 for a POST whose payload has no string "name", 201 for a created mind, and 200 otherwise. The fault script stands for everything else a real server or network may do. Every lemma that is not about a fault-free server holds for any script.
- Minds.Create: the write of the prompt template into the caller's own `opts.Parameters` map (minds.go:328-335) is not modelled; the payload is built from a copy.
- Minds.Update: `Update(nil)` dereferences nil at minds.go:35; the model's options are a value, so there is no nil options.
- Minds.CheckDatasource: a nil `*Datasource` is dereferenced in `_checkDatasource` (minds.go:265), and likewise in `DelDatasource` (minds.go:124); a handle reference here is always a handle, never nil.
- Datasources.Create: `Create(nil, …)` dereferences `dsConfig.Name` (datasources.go:38, 62); the model's config is a value, so there is no nil config.
- Datasources.Create: its own contract only says the request log grows; its behaviour is stated by the `DatasourceFacts` lemmas listed above.
- Minds.Create: its own contract only says the request log grows; its behaviour is stated by the `MindFacts` lemmas listed above.
- Minds.Submit: its own contract only says the request log grows; its behaviour is stated by the `MindFacts` lemmas listed above.
- Minds.Update: its own contract only says the request log grows; its behaviour is stated by the `MindFacts` lemmas listed above.
- Minds.AddDatasource: its own contract only says the request log grows; its behaviour is stated by the `MindFacts` lemmas listed above.
- Minds.DelDatasource: its own contract only says the request log grows; its behaviour is stated by the `MindFacts` lemmas listed above.

## Findings

| source | as written | input that shows it | evidently intended | confidence | as-written member | corrected member |
|---|---|---|---|---|---|---|
| go_sdk/minds/rest_api.go:26-28 | `baseURL[len(baseURL)-4:] != "/api/"` compares four bytes with a five-byte literal, so it is always true and "api/" is always appended | "https://mdb.ai/api/" becomes "https://mdb.ai/api/api/" (`RestApiFacts.NewRestApiDuplicatesApi`, `RestApiFacts.NewRestApiNotIdempotent`) | append "api/" only when the URL does not already end in "/api/"; idempotent (`RestApiFacts.NormalizeIntendedIdempotent`) | high; not executed | RestApi.NewRestApi | RestApi.NormalizeIntended |
| go_sdk/minds/datasources.go:44 | `err.(*ObjectNotFound)` tests the concrete type of an error that `Get` has wrapped with `%w` (lines 101-104); the same test is at minds.go:268 and minds.go:298 | a missing datasource. As written, `get` drops the translated error (third row), so the 404 reaches the decoding and `Get` fails with "error decoding datasource response: …", or with "Object not supported: wrong type of datasource: …" if the error body is read as JSON (`DatasourceFacts.GetAsWrittenOn404`). Once the helper returns the translated error, `Get` fails with "error getting datasource: Object not found: …" (`DatasourceFacts.GetAbsentIsNotFound`, `DatasourceFacts.GetNeverBareNotFound`). In every case the assertion fails and replace aborts with "error checking for existing datasource" | `errors.As`-style test that looks through wrapping, so a missing object leads to creation (`DatasourceFacts.CreateReplaceAbsent`, `MindFacts.CheckConfigProvisions`) | high; not executed | Exceptions.IsNotFoundAssertion | Exceptions.IsNotFound |
| go_sdk/minds/rest_api.go:54 | `_raiseForStatus(resp)` is called and its result dropped, in all four helpers (lines 54, 69, 89, 109), so error statuses come back as successes | a 404 reply: as written a success; with the translator an ObjectNotFound (`RestApiFacts.CallAsWrittenAcceptsNotFound`, `RestApiFacts.CallAsWrittenPassesErrors`) | return the translated error from the helper, as the managers' not-found branches expect | high; not executed | RestApi.CallAsWritten | RestApi.Call |

=== FILE: datasource_facts.dfy ===
/** Properties of the data-source manager: call order, error routing, round trips and the list filter. */
module DatasourceFacts {
  import opened Wrappers
  import opened Json
  import opened Exceptions
  import opened RestApi
  import opened Server
  import opened Datasources

  /** A config survives marshalling and unmarshalling: `Datasource` has exactly its fields. */
  lemma DecodeEncode(c: DatabaseConfig)
    ensures Decode(Encode(c)) == Success(c)
  {
    StringMapRoundTrip(c.connectionData);
    StringsRoundTrip(c.tables);
    var o := Encode(c);
    assert StringField(o, "name") == Success(c.name);
    assert StringField(o, "engine") == Success(c.engine);
    assert StringField(o, "description") == Success(c.description);
    assert StringMapField(o, "connection_data") == Success(c.connectionData);
    assert StringListField(o, "tables") == Success(c.tables);
  }

  /**
   * As written, the not-found test is a type assertion on the error `Get`
   * returns, and `Get` never returns a bare not-found: whatever the reply,
   * the assertion fails.
   */
  lemma GetNeverBareNotFound(reply: Reply, name: string)
    requires GetResult(reply, name).Failure?
    ensures !IsNotFoundAssertion(GetResult(reply, name).error)
  {
  }

  /**
   * As written, the helper hands a 404 to the decoding as a success: a body
   * that is not JSON is a decoding error, and a JSON error body without a
   * string "engine" is "not supported". Neither is a not-found, bare or
   * wrapped, so the not-found branch is missed with either test.
   */
  lemma GetAsWrittenOn404(resp: Response, name: string)
    requires resp.code == 404
    ensures var r := GetDecode(CallAsWritten(Delivered(resp)), name);
      (resp.doc.None? ==> r == Failure(Wrapped("error decoding datasource response", Malformed("body is not JSON"))))
      && (resp.doc.Some? && resp.doc.value.Obj? && !HasString(resp.doc.value.fields, "engine") ==> r == Failure(WrongType(name)))
      && (r.Failure? ==> !IsNotFound(r.error) && !IsNotFoundAssertion(r.error))
    ensures GetResult(Delivered(resp), name) == Failure(Wrapped("error getting datasource", Api(ObjectNotFound(resp.body))))
  {
  }

  /** A name the server does not hold makes `Get` fail with a (wrapped) not-found, which only the unwrapping test sees. */
  lemma GetAbsentIsNotFound(n: Net, name: string)
    requires n.script == [] && name !in n.store.datasources.rows
    ensures Get(n, name).result.Failure?
    ensures IsNotFound(Get(n, name).result.error)
    ensures !IsNotFoundAssertion(Get(n, name).result.error)
  {
  }

  /** A reply carrying a record without a string "engine" is "not supported", never "not found". */
  lemma GetUnsupportedRecord(reply: Reply, name: string)
    requires Call(reply).Success?
    requires Call(reply).value.doc == Some(Null) || (Call(reply).value.doc.Some? && Call(reply).value.doc.value.Obj? && !Supported(Call(reply).value.doc.value))
    ensures GetResult(reply, name) == Failure(Api(ObjectNotSupported("wrong type of datasource: " + name)))
    ensures !IsNotFound(GetResult(reply, name).error)
  {
  }

  /** On the server, a stored record lacking a string engine makes `Get` report "not supported". */
  lemma GetStoredUnsupported(n: Net, name: string)
    requires n.script == [] && name in n.store.datasources.rows
    requires n.store.datasources.rows[name].Null? || (n.store.datasources.rows[name].Obj? && !Supported(n.store.datasources.rows[name]))
    ensures Get(n, name).result == Failure(WrongType(name))
  {
  }

  /** On the server, `Get` of a stored supported record returns its decoding. */
  lemma GetStored(n: Net, name: string)
    requires n.script == [] && name in n.store.datasources.rows
    requires Supported(n.store.datasources.rows[name])
    requires Decode(n.store.datasources.rows[name].fields).Success?
    ensures Get(n, name).result == Success(Decode(n.store.datasources.rows[name].fields).value)
  {
  }

  /** `Drop` succeeds exactly when the DELETE was answered with 200. */
  lemma DropSucceedsIff200(n: Net, name: string)
    ensures Drop(n, name).result.Success? <==>
      Exchange(n, DeleteDatasource(name)).reply.Delivered? && Exchange(n, DeleteDatasource(name)).reply.response.code == 200
  {
  }

  /**
   * On a fault-free server, `Drop` succeeds exactly when the data source is
   * stored; afterwards it is stored no longer, no other data source has
   * changed and no mind has. Dropping an absent one is a (wrapped) not-found.
   */
  lemma DropFaultFree(n: Net, name: string)
    requires n.script == []
    ensures var r := Drop(n, name);
      (r.result.Success? <==> name in n.store.datasources.rows)
      && r.net.store.datasources.rows == n.store.datasources.rows - {name}
      && r.net.store.projects == n.store.projects
      && (r.result.Failure? ==> IsNotFound(r.result.error))
  {
  }

  /** After the POST: a transport or translated error, a non-200 status, or exactly the re-fetch. */
  lemma PostAndFetchResult(n: Net, c: DatabaseConfig)
    ensures var x := Exchange(n, PostDatasource(Encode(c)));
      var r := PostAndFetch(n, c);
      match Call(x.reply)
      case Failure(e) =>
        r.result == Failure(Wrapped("error creating datasource", e)) && Issued(n, r.net) == [PostDatasource(Encode(c))]
      case Success(resp) =>
        if resp.code != 200 then
          r.result == Failure(UnexpectedStatus(resp.code, resp.body)) && Issued(n, r.net) == [PostDatasource(Encode(c))]
        else
          r == Get(x.net, c.name) && Issued(n, r.net) == [PostDatasource(Encode(c)), GetDatasource(c.name)]
  {
  }

  /** Without replace, the POST is the first request: no Get and no Drop before it, and never a Drop. */
  lemma CreateNoReplaceTrace(n: Net, c: DatabaseConfig)
    ensures var t := Issued(n, Create(n, c, false).net);
      t == [PostDatasource(Encode(c))] || t == [PostDatasource(Encode(c)), GetDatasource(c.name)]
  {
  }

  /** The requests of a GET and a DELETE followed by `PostAndFetch`'s. */
  lemma AfterDropTrace(n: Net, dropped: Net, after: Net, c: DatabaseConfig)
    requires dropped.log == n.log + [GetDatasource(c.name), DeleteDatasource(c.name)]
    requires after.log == dropped.log + [PostDatasource(Encode(c))]
          || after.log == dropped.log + [PostDatasource(Encode(c)), GetDatasource(c.name)]
    ensures var t := Issued(n, after);
      |t| >= 3 && t[..2] == [GetDatasource(c.name), DeleteDatasource(c.name)]
      && t[2] == PostDatasource(Encode(c)) && DeleteDatasource(c.name) !in t[3..]
  {
    var t := Issued(n, after);
    var tail := after.log[|dropped.log|..];
    assert t == [GetDatasource(c.name), DeleteDatasource(c.name)] + tail;
  }

  /** With replace and an existing data source: Get, then exactly one Drop; a failed Drop ends the call before any POST. */
  lemma CreateReplaceFoundTrace(n: Net, c: DatabaseConfig)
    requires Get(n, c.name).result.Success?
    ensures var r := Create(n, c, true);
      var d := Drop(Get(n, c.name).net, c.name);
      var t := Issued(n, r.net);
      |t| >= 2 && t[..2] == [GetDatasource(c.name), DeleteDatasource(c.name)]
      && (d.result.Failure? ==>
            t == [GetDatasource(c.name), DeleteDatasource(c.name)]
            && r.result == Failure(Wrapped("error replacing datasource", d.result.error)))
      && (d.result.Success? ==> |t| >= 3 && t[2] == PostDatasource(Encode(c)) && DeleteDatasource(c.name) !in t[3..])
  {
    var g := Get(n, c.name);
    var d := Drop(g.net, c.name);
    assert d.net.log == n.log + [GetDatasource(c.name), DeleteDatasource(c.name)];
    if d.result.Success? {
      var r := PostAndFetch(d.net, c);
      assert Create(n, c, true) == r;
      AfterDropTrace(n, d.net, r.net, c);
    } else {
      assert Create(n, c, true).net == d.net;
    }
  }

  /** With replace and a not-found from Get: straight to the POST, no Drop anywhere. */
  lemma CreateReplaceNotFoundTrace(n: Net, c: DatabaseConfig)
    requires Get(n, c.name).result.Failure? && IsNotFound(Get(n, c.name).result.error)
    ensures var t := Issued(n, Create(n, c, true).net);
      |t| >= 2 && t[..2] == [GetDatasource(c.name), PostDatasource(Encode(c))]
      && forall i :: 0 <= i < |t| ==> !t[i].DeleteDatasource?
  {
    PostAndFetchResult(Get(n, c.name).net, c);
  }

  /** With replace and any other Get error: that error, in context, and nothing but the Get. */
  lemma CreateReplaceOtherErrorTrace(n: Net, c: DatabaseConfig)
    requires Get(n, c.name).result.Failure? && !IsNotFound(Get(n, c.name).result.error)
    ensures Issued(n, Create(n, c, true).net) == [GetDatasource(c.name)]
    ensures Create(n, c, true).result == Failure(Wrapped("error checking for existing datasource", Get(n, c.name).result.error))
  {
  }

  /** A POST whose request succeeded returns exactly what `Get` of the name returns afterwards. */
  lemma CreateReturnsRefetch(n: Net, c: DatabaseConfig, replace: bool)
    requires Create(n, c, replace).result.Success?
    ensures var r := Create(n, c, replace);
      |Issued(n, r.net)| >= 2
      && Issued(n, r.net)[|Issued(n, r.net)| - 2..] == [PostDatasource(Encode(c)), GetDatasource(c.name)]
  {
    var r := Create(n, c, replace);
    if !replace {
      PostAndFetchResult(n, c);
    } else {
      var g := Get(n, c.name);
      if g.result.Success? {
        var d := Drop(g.net, c.name);
        PostAndFetchResult(d.net, c);
      } else {
        PostAndFetchResult(g.net, c);
      }
    }
  }

  /** `Create` touches no data source but its own and no mind, whatever the server answers. */
  lemma CreateFrame(n: Net, c: DatabaseConfig, replace: bool)
    ensures var r := Create(n, c, replace);
      r.net.store.datasources.rows - {c.name} == n.store.datasources.rows - {c.name}
      && r.net.store.projects == n.store.projects
  {
    if !replace {
      PostAndFetchFrame(n, c);
    } else {
      var g := Get(n, c.name);
      if g.result.Success? {
        var d := Drop(g.net, c.name);
        assert d.net.store.datasources.rows - {c.name} == n.store.datasources.rows - {c.name};
        if d.result.Success? {
          PostAndFetchFrame(d.net, c);
        }
      } else if IsNotFound(g.result.error) {
        PostAndFetchFrame(g.net, c);
      }
    }
  }

  /** The POST and the re-fetch touch no data source but the config's own and no mind. */
  lemma PostAndFetchFrame(n: Net, c: DatabaseConfig)
    ensures var r := PostAndFetch(n, c);
      r.net.store.datasources.rows - {c.name} == n.store.datasources.rows - {c.name}
      && r.net.store.projects == n.store.projects
  {
    var post := PostDatasource(Encode(c));
    assert post.config["name"].s == c.name;
  }

  /** Every request in `reqs` is a data-source request. */
  predicate OnlyDatasourceRequests(reqs: seq<Request>) {
    forall i :: 0 <= i < |reqs| ==> IsDatasourceRequest(reqs[i])
  }

  /** `Create` only ever talks to the data-source endpoints. */
  lemma CreateIssuesOnlyDatasourceRequests(n: Net, c: DatabaseConfig, replace: bool)
    ensures OnlyDatasourceRequests(Issued(n, Create(n, c, replace).net))
  {
    if !replace {
      CreateNoReplaceTrace(n, c);
    } else {
      var g := Get(n, c.name);
      if g.result.Success? {
        var d := Drop(g.net, c.name);
        if d.result.Success? {
          PostAndFetchResult(d.net, c);
        }
      } else if IsNotFound(g.result.error) {
        PostAndFetchResult(g.net, c);
      }
    }
  }

  /** Creating a new data source and reading it back gives the config's own fields. */
  lemma CreateThenGet(n: Net, c: DatabaseConfig)
    requires n.script == [] && c.name !in n.store.datasources.rows
    ensures var r := Create(n, c, false);
      r.result == Success(c)
      && Issued(n, r.net) == [PostDatasource(Encode(c)), GetDatasource(c.name)]
      && r.net.store.datasources.rows == n.store.datasources.rows[c.name := Obj(Encode(c))]
  {
    DecodeEncode(c);
  }

  /** Replacing a data source the server does not hold: Get (not found), POST, Get; no Drop. */
  lemma CreateReplaceAbsent(n: Net, c: DatabaseConfig)
    requires n.script == [] && c.name !in n.store.datasources.rows
    ensures var r := Create(n, c, true);
      r.result == Success(c)
      && Issued(n, r.net) == [GetDatasource(c.name), PostDatasource(Encode(c)), GetDatasource(c.name)]
  {
    GetAbsentIsNotFound(n, c.name);
    CreateThenGet(Get(n, c.name).net, c);
  }

  /** Replacing a readable data source: Get, one Drop, POST, Get, and the new config is what comes back. */
  lemma CreateReplaceExisting(n: Net, c: DatabaseConfig)
    requires n.script == [] && c.name in n.store.datasources.rows
    requires Supported(n.store.datasources.rows[c.name])
    requires Decode(n.store.datasources.rows[c.name].fields).Success?
    ensures var r := Create(n, c, true);
      r.result == Success(c)
      && Issued(n, r.net) == [GetDatasource(c.name), DeleteDatasource(c.name), PostDatasource(Encode(c)), GetDatasource(c.name)]
  {
    GetStored(n, c.name);
    var g := Get(n, c.name);
    var d := Drop(g.net, c.name);
    assert c.name !in d.net.store.datasources.rows;
    CreateThenGet(d.net, c);
  }

  /** `sub` can be obtained from `s` by deleting elements, so it appears in `s` in the same order. */
  predicate IsSubsequence<T(==)>(sub: seq<T>, s: seq<T>)
    decreases |s|
  {
    if |s| == 0 then |sub| == 0
    else IsSubsequence(sub, s[1..]) || (|sub| > 0 && sub[0] == s[0] && IsSubsequence(sub[1..], s[1..]))
  }

  /** The filter keeps records in server order. */
  lemma {:induction false} SupportedRecordsInOrder(items: seq<Value>)
    ensures IsSubsequence(SupportedRecords(items), items)
  {
    if |items| > 0 {
      SupportedRecordsInOrder(items[1..]);
      if Supported(items[0]) {
        assert SupportedRecords(items)[1..] == SupportedRecords(items[1..]);
      } else {
        assert SupportedRecords(items) == SupportedRecords(items[1..]);
      }
    }
  }

  /** The filter keeps exactly the supported records, each as many times as the listing has it. */
  lemma {:induction false} SupportedRecordsExact(items: seq<Value>, v: Value)
    ensures v in SupportedRecords(items) <==> v in items && Supported(v)
    ensures multiset(SupportedRecords(items))[v] == if Supported(v) then multiset(items)[v] else 0
  {
    if |items| > 0 {
      SupportedRecordsExact(items[1..], v);
      assert items == [items[0]] + items[1..];
      assert multiset(items) == multiset([items[0]]) + multiset(items[1..]);
      var head := if Supported(items[0]) then [items[0]] else [];
      assert SupportedRecords(items) == head + SupportedRecords(items[1..]);
      assert multiset(SupportedRecords(items)) == multiset(head) + multiset(SupportedRecords(items[1..]));
    }
  }

  /** Every record in `records` is an object that unmarshals into a `Datasource`. */
  predicate AllDecode(records: seq<Value>) {
    forall i :: 0 <= i < |records| ==> records[i].Obj? && Decode(records[i].fields).Success?
  }

  /** `List` decodes every kept record, or fails on the first one that does not decode. */
  lemma {:induction false} DecodeSupportedSucceedsIff(items: seq<Value>)
    ensures DecodeSupported(items).Success? <==> AllDecode(SupportedRecords(items))
  {
    if |items| > 0 {
      DecodeSupportedSucceedsIff(items[1..]);
      var kept := SupportedRecords(items);
      var rest := SupportedRecords(items[1..]);
      if Supported(items[0]) {
        assert kept == [items[0]] + rest;
        assert DecodeSupported(items).Success? <==>
          Decode(items[0].fields).Success? && DecodeSupported(items[1..]).Success?;
        if AllDecode(kept) {
          assert kept[0] == items[0];
          forall i | 0 <= i < |rest|
            ensures rest[i].Obj? && Decode(rest[i].fields).Success?
          {
            assert rest[i] == kept[i + 1];
          }
        }
        if Decode(items[0].fields).Success? && AllDecode(rest) {
          forall i | 0 <= i < |kept|
            ensures kept[i].Obj? && Decode(kept[i].fields).Success?
          {
            if i > 0 {
              assert kept[i] == rest[i - 1];
            }
          }
        }
      } else {
        assert kept == rest;
      }
    }
  }

  /** A listing reply of supported records only: `List` returns each record's decoding, in order. */
  lemma ListKeepsOrder(reply: Reply)
    requires ListResult(reply).Success?
    requires Call(reply).value.doc.Some? && Call(reply).value.doc.value.Arr?
    ensures var items := Call(reply).value.doc.value.items;
      var out := ListResult(reply).value;
      |out| == |SupportedRecords(items)|
      && IsSubsequence(SupportedRecords(items), items)
      && forall i :: 0 <= i < |out| ==> Decode(SupportedRecords(items)[i].fields) == Success(out[i])
  {
    SupportedRecordsInOrder(Call(reply).value.doc.value.items);
  }
}

=== FILE: datasources.dfy ===
/**
 * The data-source manager (datasources.go): the configuration record, its
 * JSON form, and Create (with replace), List, Get and Drop as functions
 * over the server that return the server afterwards and the result.
 */
module Datasources {
  import opened Wrappers
  import opened Json
  import opened Exceptions
  import opened RestApi
  import opened Server

  /** `DatabaseConfig`: what a caller supplies to create a data source. */
  datatype DatabaseConfig = DatabaseConfig(
    name: string,
    engine: string,
    description: string,
    connectionData: map<string, string>,
    tables: seq<string>)

  /** `Datasource` is declared as `DatabaseConfig` itself: same fields, same JSON names. */
  type Datasource = DatabaseConfig

  /** `json.Marshal` of a config; `tables` is omitted when empty. */
  function Encode(c: DatabaseConfig): (o: Object)
    ensures HasString(o, "name") && o["name"] == Str(c.name)
    ensures HasString(o, "engine")
  {
    var fields := map[
      "name" := Str(c.name),
      "engine" := Str(c.engine),
      "description" := Str(c.description),
      "connection_data" := Obj(StringValues(c.connectionData))];
    if |c.tables| == 0 then fields else fields["tables" := Arr(Strings(c.tables))]
  }

  /** `json.Unmarshal` of an object into a `Datasource`; unknown members are ignored. */
  function Decode(o: Object): Result<Datasource, string> {
    var name :- StringField(o, "name");
    var engine :- StringField(o, "engine");
    var description :- StringField(o, "description");
    var connectionData :- StringMapField(o, "connection_data");
    var tables :- StringListField(o, "tables");
    Success(DatabaseConfig(name, engine, description, connectionData, tables))
  }

  /** The compatibility filter: a record is kept when it is an object whose "engine" is a string. */
  predicate Supported(v: Value) {
    v.Obj? && HasString(v.fields, "engine")
  }

  function WrongType(name: string): Error {
    Api(ObjectNotSupported("wrong type of datasource: " + name))
  }

  /**
   * What `Get` makes of the outcome of the helper call for
   * `GET /datasources/{name}`: a helper error is wrapped, the body must be
   * a JSON object with a string "engine", and it is then unmarshalled.
   */
  function GetDecode(call: Result<Response, Error>, name: string): (r: Result<Datasource, Error>)
    ensures r.Success? ==> call.Success?
    ensures call.Failure? ==> r == Failure(Wrapped("error getting datasource", call.error))
  {
    match call
    case Failure(e) => Failure(Wrapped("error getting datasource", e))
    case Success(resp) =>
      match resp.doc
      case None => Failure(Wrapped("error decoding datasource response", Malformed("body is not JSON")))
      case Some(Null) => Failure(WrongType(name))
      case Some(Obj(o)) =>
        if !HasString(o, "engine") then Failure(WrongType(name))
        else
          (match Decode(o)
           case Failure(d) => Failure(Wrapped("error unmarshaling datasource", Malformed(d)))
           case Success(ds) => Success(ds))
      case Some(_) => Failure(Wrapped("error decoding datasource response", Malformed("body is not an object")))
  }

  /** What `Get` makes of the reply to `GET /datasources/{name}`, with the translated status returned. */
  function GetResult(reply: Reply, name: string): (r: Result<Datasource, Error>)
    ensures r.Success? ==> Call(reply).Success?
  {
    GetDecode(Call(reply), name)
  }

  /** `Get`: one GET, which never changes the server. */
  function Get(n: Net, name: string): (r: Outcome<Datasource>)
    ensures r.net.log == n.log + [GetDatasource(name)]
    ensures r.net.store == n.store
    ensures n.script == [] ==> r.net.script == []
  {
    var x := Exchange(n, GetDatasource(name));
    Outcome(x.net, GetResult(x.reply, name))
  }

  /** What `Drop` makes of the reply to `DELETE /datasources/{name}`. */
  function DropResult(reply: Reply): (r: Result<(), Error>)
    ensures r.Success? <==> reply.Delivered? && reply.response.code == 200
  {
    match Call(reply)
    case Failure(e) => Failure(Wrapped("error deleting datasource", e))
    case Success(resp) =>
      if resp.code != 200 then Failure(UnexpectedStatus(resp.code, resp.body))
      else Success(())
  }

  /** `Drop`: one DELETE. */
  function Drop(n: Net, name: string): (r: Outcome<()>)
    ensures r.net.log == n.log + [DeleteDatasource(name)]
    ensures n.script == [] ==> r.net.script == []
  {
    var x := Exchange(n, DeleteDatasource(name));
    Outcome(x.net, DropResult(x.reply))
  }

  /** The POST of `Create` and, when it returns 200, the re-fetch through `Get`. */
  function PostAndFetch(n: Net, c: DatabaseConfig): (r: Outcome<Datasource>)
    ensures r.net.log == n.log + [PostDatasource(Encode(c))]
         || r.net.log == n.log + [PostDatasource(Encode(c)), GetDatasource(c.name)]
    ensures n.script == [] ==> r.net.script == []
  {
    var x := Exchange(n, PostDatasource(Encode(c)));
    match Call(x.reply)
    case Failure(e) => Outcome(x.net, Failure(Wrapped("error creating datasource", e)))
    case Success(resp) =>
      if resp.code != 200 then Outcome(x.net, Failure(UnexpectedStatus(resp.code, resp.body)))
      else Get(x.net, c.name)
  }

  /**
   * `Create`. With `replace`, an existing data source (one `Get` finds) is
   * dropped first and a failed drop aborts; a not-found lets creation go
   * ahead; any other `Get` error aborts. Then POST and re-fetch.
   */
  function Create(n: Net, c: DatabaseConfig, replace: bool): (r: Outcome<Datasource>)
    ensures n.log <= r.net.log
    ensures n.script == [] ==> r.net.script == []
  {
    if !replace then PostAndFetch(n, c)
    else
      var g := Get(n, c.name);
      match g.result
      case Success(_) =>
        var d := Drop(g.net, c.name);
        (match d.result
         case Failure(e) => Outcome(d.net, Failure(Wrapped("error replacing datasource", e)))
         case Success(_) => PostAndFetch(d.net, c))
      case Failure(e) =>
        if IsNotFound(e) then PostAndFetch(g.net, c)
        else Outcome(g.net, Failure(Wrapped("error checking for existing datasource", e)))
  }

  /** The records the filter keeps, in server order. */
  function SupportedRecords(items: seq<Value>): (r: seq<Value>)
    ensures |r| <= |items|
    ensures forall i :: 0 <= i < |r| ==> Supported(r[i])
  {
    if |items| == 0 then []
    else (if Supported(items[0]) then [items[0]] else []) + SupportedRecords(items[1..])
  }

  /** A decoded first kept record in front of the decodings of the rest decodes all kept records. */
  lemma ConsDecodes(items: seq<Value>, head: Datasource, tail: seq<Datasource>)
    requires |items| > 0 && Supported(items[0]) && Decode(items[0].fields) == Success(head)
    requires |tail| == |SupportedRecords(items[1..])|
    requires forall i :: 0 <= i < |tail| ==> Decode(SupportedRecords(items[1..])[i].fields) == Success(tail[i])
    ensures |[head] + tail| == |SupportedRecords(items)|
    ensures forall i :: 0 <= i < |tail| + 1 ==> Decode(SupportedRecords(items)[i].fields) == Success(([head] + tail)[i])
  {
    var rest := SupportedRecords(items[1..]);
    var kept := SupportedRecords(items);
    assert kept == [items[0]] + rest;
    forall i | 0 <= i < |tail| + 1
      ensures Decode(kept[i].fields) == Success(([head] + tail)[i])
    {
      if i > 0 {
        assert kept[i] == rest[i - 1];
      }
    }
  }

  /** The loop of `List`: skip unsupported records, decode the rest in order; the first decoding error aborts. */
  function DecodeSupported(items: seq<Value>): (r: Result<seq<Datasource>, Error>)
    ensures r.Success? ==> |r.value| == |SupportedRecords(items)|
    ensures r.Success? ==> forall i :: 0 <= i < |r.value| ==>
      Decode(SupportedRecords(items)[i].fields) == Success(r.value[i])
  {
    if |items| == 0 then Success([])
    else if !Supported(items[0]) then
      assert SupportedRecords(items) == SupportedRecords(items[1..]);
      DecodeSupported(items[1..])
    else
      match Decode(items[0].fields)
      case Failure(d) => Failure(Wrapped("error unmarshaling datasource item", Malformed(d)))
      case Success(head) =>
        match DecodeSupported(items[1..])
        case Failure(e) => Failure(e)
        case Success(tail) =>
          ConsDecodes(items, head, tail);
          Success([head] + tail)
  }

  /** Whether a body decodes as `[]map[string]interface{}`: an array of objects or nulls. */
  predicate IsRecordArray(items: seq<Value>) {
    forall i :: 0 <= i < |items| ==> items[i].Obj? || items[i].Null?
  }

  /** What `List` makes of the reply to `GET /datasources`. */
  function ListResult(reply: Reply): (r: Result<seq<Datasource>, Error>)
    ensures r.Success? ==> Call(reply).Success?
  {
    match Call(reply)
    case Failure(e) => Failure(Wrapped("error listing datasources", e))
    case Success(resp) =>
      match resp.doc
      case Some(Null) => Success([])
      case Some(Arr(items)) =>
        if IsRecordArray(items) then DecodeSupported(items)
        else Failure(Wrapped("error decoding datasources response", Malformed("not an array of objects")))
      case _ => Failure(Wrapped("error decoding datasources response", Malformed("not an array")))
  }

  /** `List`: one GET of the collection, which never changes the server. */
  function List(n: Net): (r: Outcome<seq<Datasource>>)
    ensures r.net.log == n.log + [ListDatasources]
    ensures r.net.store == n.store
  {
    var x := Exchange(n, ListDatasources);
    Outcome(x.net, ListResult(x.reply))
  }
}

=== FILE: exceptions.dfy ===
/**
 * The error kinds of the API (exceptions.go) and the errors the managers
 * build around them.
 */
module Exceptions {
  import opened Wrappers

  /** The five error kinds, each carrying the message it was raised with. */
  datatype ApiError =
    | ObjectNotFound(message: string)
    | ObjectNotSupported(message: string)
    | Forbidden(message: string)
    | Unauthorized(message: string)
    | UnknownError(message: string)

  /** The fixed text a kind's `Error()` puts before its message. */
  function Prefix(e: ApiError): string {
    match e
    case ObjectNotFound(_) => "Object not found: "
    case ObjectNotSupported(_) => "Object not supported: "
    case Forbidden(_) => "Forbidden: "
    case Unauthorized(_) => "Unauthorized: "
    case UnknownError(_) => "Unknown error: "
  }

  /** `Error()` of each kind. */
  function Render(e: ApiError): (s: string)
    ensures e.ObjectNotFound? ==> s == "Object not found: " + e.message
    ensures e.ObjectNotSupported? ==> s == "Object not supported: " + e.message
    ensures e.Forbidden? ==> s == "Forbidden: " + e.message
    ensures e.Unauthorized? ==> s == "Unauthorized: " + e.message
    ensures e.UnknownError? ==> s == "Unknown error: " + e.message
  {
    Prefix(e) + e.message
  }

  /** Reads a rendered error back: the first prefix that matches decides the kind. */
  function Parse(s: string): (r: Option<ApiError>)
    ensures r.Some? ==> Render(r.value) == s
  {
    if "Object not found: " <= s then Some(ObjectNotFound(s[18..]))
    else if "Object not supported: " <= s then Some(ObjectNotSupported(s[22..]))
    else if "Forbidden: " <= s then Some(Forbidden(s[11..]))
    else if "Unauthorized: " <= s then Some(Unauthorized(s[14..]))
    else if "Unknown error: " <= s then Some(UnknownError(s[15..]))
    else None
  }

  /** No kind's prefix is a prefix of another kind's. */
  lemma PrefixFree(e1: ApiError, e2: ApiError)
    requires Prefix(e1) != Prefix(e2)
    ensures !(Prefix(e1) <= Prefix(e2))
  {
    var p1, p2 := Prefix(e1), Prefix(e2);
    // the two texts part ways at the first letter, or after "Object not " or "Un"
    var i := if p1[0] != p2[0] then 0 else if p1[0] == 'O' then 11 else 2;
    assert i < |p1| && i < |p2| && p1[i] != p2[i];
  }

  /** If one string is a prefix of another's extension, the two stems are prefix-comparable. */
  lemma PrefixOfExtension(p: string, q: string, m: string)
    requires p <= q + m
    ensures p <= q || q <= p
  {
    if |p| <= |q| {
      assert forall i :: 0 <= i < |p| ==> p[i] == (q + m)[i] == q[i];
    } else {
      assert forall i :: 0 <= i < |q| ==> q[i] == (q + m)[i] == p[i];
    }
  }

  /** A rendered error that starts with another kind's prefix would make that prefix comparable with its own. */
  lemma ForeignPrefixAbsent(e: ApiError, other: ApiError)
    requires Prefix(other) != Prefix(e)
    ensures !(Prefix(other) <= Render(e))
  {
    if Prefix(other) <= Prefix(e) + e.message {
      PrefixOfExtension(Prefix(other), Prefix(e), e.message);
      PrefixFree(other, e);
      PrefixFree(e, other);
    }
  }

  /** Kind and message are recoverable from `Error()`. */
  lemma ParseRender(e: ApiError)
    ensures Parse(Render(e)) == Some(e)
  {
    match e
    case ObjectNotFound(_) =>
    case ObjectNotSupported(_) =>
      ForeignPrefixAbsent(e, ObjectNotFound(""));
    case Forbidden(_) =>
      ForeignPrefixAbsent(e, ObjectNotFound(""));
      ForeignPrefixAbsent(e, ObjectNotSupported(""));
    case Unauthorized(_) =>
      ForeignPrefixAbsent(e, ObjectNotFound(""));
      ForeignPrefixAbsent(e, ObjectNotSupported(""));
      ForeignPrefixAbsent(e, Forbidden(""));
    case UnknownError(_) =>
      ForeignPrefixAbsent(e, ObjectNotFound(""));
      ForeignPrefixAbsent(e, ObjectNotSupported(""));
      ForeignPrefixAbsent(e, Forbidden(""));
      ForeignPrefixAbsent(e, Unauthorized(""));
  }

  /** Different errors render differently. */
  lemma RenderInjective(e1: ApiError, e2: ApiError)
    requires Render(e1) == Render(e2)
    ensures e1 == e2
  {
    ParseRender(e1);
    ParseRender(e2);
  }

  /**
   * Everything a manager call can fail with: one of the API kinds, or an
   * error the source builds with `fmt.Errorf`. `Wrapped` is `%w`: the
   * operation's context in front of the cause.
   */
  datatype Error =
    | Api(kind: ApiError)
    | Transport(detail: string)
    | Malformed(detail: string)
    | UnexpectedStatus(code: int, body: string)
    | UnknownDatasourceType(typeName: string)
    | Wrapped(context: string, cause: Error)

  /** `errors.As(err, &ObjectNotFound)`: the error or any error it wraps is a not-found. */
  predicate IsNotFound(e: Error) {
    match e
    case Api(k) => k.ObjectNotFound?
    case Wrapped(_, cause) => IsNotFound(cause)
    case _ => false
  }

  /** `err.(*ObjectNotFound)` as the source writes it: only an unwrapped not-found matches. */
  predicate IsNotFoundAssertion(e: Error) {
    e.Api? && e.kind.ObjectNotFound?
  }

  /** The innermost cause of a chain of wrappings. */
  function Root(e: Error): (r: Error)
    ensures !r.Wrapped?
  {
    match e
    case Wrapped(_, cause) => Root(cause)
    case _ => e
  }

  /** `errors.As` finds a not-found exactly when the innermost cause is one. */
  lemma {:induction false} IsNotFoundIffRoot(e: Error)
    ensures IsNotFound(e) <==> IsNotFoundAssertion(Root(e))
  {
    if e.Wrapped? {
      IsNotFoundIffRoot(e.cause);
    }
  }
}

=== FILE: json.dfy ===
/**
 * Decoded JSON documents and the way Go's encoding/json fills struct fields
 * from them. Numbers are kept as integers; the model never looks inside one.
 */
module Json {
  import opened Wrappers

  datatype Value =
    | Null
    | Bool(b: bool)
    | Num(n: int)
    | Str(s: string)
    | Arr(items: seq<Value>)
    | Obj(fields: map<string, Value>)

  /** A decoded JSON object, as Go's `map[string]interface{}`. */
  type Object = map<string, Value>

  /** Go's `o[key].(string)`: the member exists and is a JSON string. */
  predicate HasString(o: Object, key: string) {
    key in o && o[key].Str?
  }

  /**
   * Unmarshalling member `key` into a Go `string` field: an absent or null
   * member leaves the zero value "", a string is taken, anything else is a
   * type error.
   */
  function StringField(o: Object, key: string): (r: Result<string, string>)
    ensures HasString(o, key) ==> r == Success(o[key].s)
  {
    if key !in o then Success("")
    else match o[key]
      case Null => Success("")
      case Str(s) => Success(s)
      case _ => Failure("cannot unmarshal member " + key + " into a string")
  }

  /** Marshalling a Go `[]string`. */
  function Strings(xs: seq<string>): (r: seq<Value>)
    ensures |r| == |xs|
    ensures forall i :: 0 <= i < |xs| ==> r[i] == Str(xs[i])
  {
    seq(|xs|, i requires 0 <= i < |xs| => Str(xs[i]))
  }

  /** Unmarshalling a JSON array into a Go `[]string`; a null element becomes "". */
  function StringsOf(items: seq<Value>): (r: Result<seq<string>, string>)
    ensures r.Success? ==> |r.value| == |items|
  {
    if |items| == 0 then Success([])
    else
      var head :- match items[0]
        case Str(s) => Success(s)
        case Null => Success("")
        case _ => Failure("cannot unmarshal an array element into a string");
      var tail :- StringsOf(items[1..]);
      Success([head] + tail)
  }

  /** A marshalled `[]string` unmarshals back to the same slice. */
  lemma {:induction false} StringsRoundTrip(xs: seq<string>)
    ensures StringsOf(Strings(xs)) == Success(xs)
  {
    if |xs| > 0 {
      assert Strings(xs)[1..] == Strings(xs[1..]);
      StringsRoundTrip(xs[1..]);
      assert [xs[0]] + xs[1..] == xs;
    }
  }

  /** Unmarshalling member `key` into a Go `[]string` field; absent or null gives the empty slice. */
  function StringListField(o: Object, key: string): Result<seq<string>, string> {
    if key !in o then Success([])
    else match o[key]
      case Null => Success([])
      case Arr(items) => StringsOf(items)
      case _ => Failure("cannot unmarshal member " + key + " into a string slice")
  }

  /** Marshalling a Go `map[string]string`. */
  function StringValues(m: map<string, string>): (r: Object)
    ensures r.Keys == m.Keys
    ensures forall k :: k in m ==> r[k] == Str(m[k])
  {
    map k | k in m :: Str(m[k])
  }

  /** Unmarshalling a JSON object into a Go `map[string]string`; a null value becomes "". */
  function StringMapOf(o: Object): Result<map<string, string>, string> {
    if forall k :: k in o ==> o[k].Str? || o[k].Null? then
      Success(map k | k in o :: if o[k].Str? then o[k].s else "")
    else Failure("cannot unmarshal an object member into a string")
  }

  /** Unmarshalling member `key` into a Go `map[string]string` field; absent or null gives the empty map. */
  function StringMapField(o: Object, key: string): Result<map<string, string>, string> {
    if key !in o then Success(map[])
    else match o[key]
      case Null => Success(map[])
      case Obj(m) => StringMapOf(m)
      case _ => Failure("cannot unmarshal member " + key + " into a string map")
  }

  /** A marshalled `map[string]string` unmarshals back to the same map. */
  lemma StringMapRoundTrip(m: map<string, string>)
    ensures StringMapOf(StringValues(m)) == Success(m)
  {
    var back := map k | k in StringValues(m) :: if StringValues(m)[k].Str? then StringValues(m)[k].s else "";
    assert back == m;
  }

  /** Unmarshalling member `key` into a Go `map[string]interface{}` field; absent or null gives the empty map. */
  function ObjectField(o: Object, key: string): (r: Result<Object, string>)
    ensures key in o && o[key].Obj? ==> r == Success(o[key].fields)
  {
    if key !in o then Success(map[])
    else match o[key]
      case Null => Success(map[])
      case Obj(m) => Success(m)
      case _ => Failure("cannot unmarshal member " + key + " into an object")
  }
}

=== FILE: mind_facts.dfy ===
/** Properties of the mind manager and the mind handle: resolution, payloads, call order, handle effects and the completion host. */
module MindFacts {
  import opened Wrappers
  import opened Json
  import opened Exceptions
  import opened RestApi
  import opened Server
  import Datasources
  import DatasourceFacts
  import opened Minds

  /** The requests of a call made of two consecutive steps are those of the first followed by those of the second. */
  lemma IssuedSplit(a: Net, b: Net, c: Net)
    requires a.log <= b.log <= c.log
    ensures Issued(a, c) == Issued(a, b) + Issued(b, c)
  {
  }

  /** A mind survives marshalling and unmarshalling. */
  lemma DecodeEncode(m: Mind)
    ensures Decode(Encode(m)) == Success(m)
  {
    StringsRoundTrip(m.datasources);
    var o := Encode(m);
    assert StringField(o, "project") == Success(m.project);
    assert StringField(o, "name") == Success(m.name);
    assert StringField(o, "model_name") == Success(m.modelName);
    assert StringField(o, "provider") == Success(m.provider);
    assert StringField(o, "prompt_template") == Success(m.promptTemplate);
    assert ObjectField(o, "parameters") == Success(m.parameters);
    assert StringListField(o, "datasources") == Success(m.datasources);
    assert StringField(o, "created_at") == Success(m.createdAt);
    assert StringField(o, "updated_at") == Success(m.updatedAt);
  }

  /** Every element of a listing is an object that decodes to a mind. */
  ghost predicate AllMinds(items: seq<Value>) {
    forall i :: 0 <= i < |items| ==> items[i].Obj? && Decode(items[i].fields).Success?
  }

  /**
   * Decoding a listing succeeds exactly when every element is a decodable
   * object, and then yields each element's mind in listing order.
   */
  lemma {:induction false} DecodeAllSucceedsIff(items: seq<Value>)
    ensures DecodeAll(items).Success? <==> AllMinds(items)
    ensures DecodeAll(items).Success? ==>
      forall i :: 0 <= i < |items| ==> Success(DecodeAll(items).value[i]) == Decode(items[i].fields)
    decreases |items|
  {
    if |items| > 0 {
      DecodeAllSucceedsIff(items[1..]);
      if DecodeAll(items).Success? {
        var ms := DecodeAll(items).value;
        assert items[0].Obj? && Decode(items[0].fields) == Success(ms[0]);
        assert DecodeAll(items[1..]).value == ms[1..];
        forall i | 0 <= i < |items|
          ensures items[i].Obj? && Success(ms[i]) == Decode(items[i].fields)
        {
          if i > 0 {
            assert items[i] == items[1..][i - 1];
          }
        }
      } else if AllMinds(items) {
        assert AllMinds(items[1..]) by {
          forall i | 0 <= i < |items[1..]|
            ensures items[1..][i].Obj? && Decode(items[1..][i].fields).Success?
          {
            assert items[1..][i] == items[i + 1];
          }
        }
        assert false;
      }
    }
  }

  /** On a fault-free server, `Minds.List` returns the project's minds in listing order when all of them decode. */
  lemma ListFaultFree(n: Net)
    requires n.script == []
    ensures var listing := Listing(MindsOf(n.store, DefaultProject));
      (List(n).result.Success? <==> AllMinds(listing))
      && (List(n).result.Success? ==>
            |List(n).result.value| == |listing|
            && forall i :: 0 <= i < |listing| ==> Success(List(n).result.value[i]) == Decode(listing[i].fields))
  {
    DecodeAllSucceedsIff(Listing(MindsOf(n.store, DefaultProject)));
  }

  /** On a fault-free server, `Minds.Get` of a name the project lacks fails with a (wrapped) not-found. */
  lemma GetAbsentMindIsNotFound(n: Net, name: string)
    requires n.script == [] && name !in MindsOf(n.store, DefaultProject).rows
    ensures Get(n, name).result.Failure?
    ensures IsNotFound(Get(n, name).result.error) && !IsNotFoundAssertion(Get(n, name).result.error)
  {
  }

  /**
   * On a fault-free server, `Minds.Drop` succeeds exactly when the project
   * holds the mind; afterwards the project no longer holds it, and nothing
   * else the server keeps has changed. Dropping an absent mind is a
   * (wrapped) not-found.
   */
  lemma DropFaultFree(n: Net, name: string)
    requires n.script == []
    ensures var r := Drop(n, name);
      (r.result.Success? <==> name in MindsOf(n.store, DefaultProject).rows)
      && MindsOf(r.net.store, DefaultProject).rows == MindsOf(n.store, DefaultProject).rows - {name}
      && r.net.store.datasources == n.store.datasources
      && (forall p :: p != DefaultProject ==> MindsOf(r.net.store, p) == MindsOf(n.store, p))
      && (r.result.Failure? ==> IsNotFound(r.result.error))
  {
  }

  // ---------------------------------------------------------------------------
  // Datasource-reference resolution
  // ---------------------------------------------------------------------------

  /** A name or a handle resolves to its name without any request. */
  lemma CheckNameOrHandle(n: Net, ref: DatasourceRef)
    requires ref.ByName? || ref.ByHandle?
    ensures CheckDatasource(n, ref) == Outcome(n, Success(RefName(ref).value))
  {
  }

  /** A config the server already has costs exactly one GET and resolves to its name. */
  lemma CheckConfigFound(n: Net, c: Datasources.DatabaseConfig)
    requires Datasources.Get(n, c.name).result.Success?
    ensures var r := CheckDatasource(n, ByConfig(c));
      Issued(n, r.net) == [GetDatasource(c.name)] && r.result == Success(c.name)
  {
  }

  /**
   * A config the server reports not found is created, without replace:
   * the GET, then the POST of its JSON form, and never a DELETE; the
   * resolution succeeds exactly when that creation does.
   */
  lemma CheckConfigNotFound(n: Net, c: Datasources.DatabaseConfig)
    requires Datasources.Get(n, c.name).result.Failure? && IsNotFound(Datasources.Get(n, c.name).result.error)
    ensures var g := Datasources.Get(n, c.name);
      var created := Datasources.Create(g.net, c, false);
      var r := CheckDatasource(n, ByConfig(c));
      var t := Issued(n, r.net);
      r.net == created.net
      && |t| >= 2 && t[0] == GetDatasource(c.name) && t[1] == PostDatasource(Datasources.Encode(c))
      && (forall i :: 0 <= i < |t| ==> !t[i].DeleteDatasource?)
      && (r.result.Success? <==> created.result.Success?)
  {
    var g := Datasources.Get(n, c.name);
    var created := Datasources.Create(g.net, c, false);
    DatasourceFacts.CreateNoReplaceTrace(g.net, c);
    IssuedSplit(n, g.net, created.net);
  }

  /** Any other error from the lookup ends resolution after the one GET, with that error in context. */
  lemma CheckConfigOtherError(n: Net, c: Datasources.DatabaseConfig)
    requires Datasources.Get(n, c.name).result.Failure? && !IsNotFound(Datasources.Get(n, c.name).result.error)
    ensures var g := Datasources.Get(n, c.name);
      CheckDatasource(n, ByConfig(c)) == Outcome(g.net, Failure(Wrapped("error checking for existing datasource", g.result.error)))
  {
  }

  /** On a fault-free server, a config the server lacks is provisioned (GET, POST, GET) and resolves to its name. */
  lemma CheckConfigProvisions(n: Net, c: Datasources.DatabaseConfig)
    requires n.script == [] && c.name !in n.store.datasources.rows
    ensures var r := CheckDatasource(n, ByConfig(c));
      r.result == Success(c.name)
      && Issued(n, r.net) == [GetDatasource(c.name), PostDatasource(Datasources.Encode(c)), GetDatasource(c.name)]
      && r.net.store.datasources.rows == n.store.datasources.rows[c.name := Obj(Datasources.Encode(c))]
  {
    var g := Datasources.Get(n, c.name);
    DatasourceFacts.GetAbsentIsNotFound(n, c.name);
    DatasourceFacts.CreateThenGet(g.net, c);
    IssuedSplit(n, g.net, Datasources.Create(g.net, c, false).net);
  }

  /** Resolution of one reference only ever talks to the data-source endpoints. */
  lemma CheckOnlyDatasourceRequests(n: Net, ref: DatasourceRef)
    ensures DatasourceFacts.OnlyDatasourceRequests(Issued(n, CheckDatasource(n, ref).net))
  {
    if ref.ByConfig? {
      var c := ref.config;
      var g := Datasources.Get(n, c.name);
      if g.result.Failure? && IsNotFound(g.result.error) {
        var created := Datasources.Create(g.net, c, false);
        DatasourceFacts.CreateIssuesOnlyDatasourceRequests(g.net, c, false);
        IssuedSplit(n, g.net, created.net);
      }
    }
  }

  /** Resolving a list only ever talks to the data-source endpoints. */
  lemma {:induction false} ResolveOnlyDatasourceRequests(n: Net, refs: seq<DatasourceRef>)
    ensures DatasourceFacts.OnlyDatasourceRequests(Issued(n, ResolveAll(n, refs).net))
    decreases |refs|
  {
    if |refs| > 0 {
      var first := CheckDatasource(n, refs[0]);
      CheckOnlyDatasourceRequests(n, refs[0]);
      if first.result.Success? {
        var rest := ResolveAll(first.net, refs[1..]);
        ResolveOnlyDatasourceRequests(first.net, refs[1..]);
        IssuedSplit(n, first.net, rest.net);
      }
    }
  }

  /** A list of names and handles resolves without any request. */
  lemma {:induction false} ResolveNamesOnly(n: Net, refs: seq<DatasourceRef>)
    requires forall i :: 0 <= i < |refs| ==> refs[i].ByName? || refs[i].ByHandle?
    ensures ResolveAll(n, refs).net == n && ResolveAll(n, refs).result.Success?
    decreases |refs|
  {
    if |refs| > 0 {
      ResolveNamesOnly(n, refs[1..]);
    }
  }

  /**
   * Resolution stops at the first reference of a refused type: when every
   * earlier one is a name or a handle, no request is issued and the error
   * names that reference's type.
   */
  lemma {:induction false} ResolveStopsAtRefused(n: Net, refs: seq<DatasourceRef>, k: nat)
    requires k < |refs| && RefName(refs[k]).None?
    requires forall i :: 0 <= i < k ==> refs[i].ByName? || refs[i].ByHandle?
    ensures ResolveAll(n, refs) == Outcome(n, Failure(UnknownDatasourceType(TypeName(refs[k]))))
    decreases k
  {
    if k > 0 {
      ResolveStopsAtRefused(n, refs[1..], k - 1);
    }
  }

  // ---------------------------------------------------------------------------
  // Payloads
  // ---------------------------------------------------------------------------

  /** The options `Create` acts on: nil options behave as options with every field nil. */
  function Given(opts: Option<CreateOptions>): CreateOptions {
    opts.GetOr(NoCreateOptions)
  }

  /**
   * The create payload: the name always; model name, provider and the
   * resolved datasources exactly when given; and parameters that hold the
   * caller's entries with "prompt_template" set to the given template, or
   * to "{{input}}" when none is given (overriding any such parameter).
   */
  lemma CreatePayloadShape(name: string, opts: Option<CreateOptions>, resolved: seq<string>)
    ensures var p := CreatePayload(name, opts, resolved);
      p.Keys <= {"name", "model_name", "provider", "datasources", "parameters"}
      && "name" in p && p["name"] == Str(name)
      && ("model_name" in p <==> Given(opts).modelName.Some?)
      && ("model_name" in p ==> p["model_name"] == Str(Given(opts).modelName.value))
      && ("provider" in p <==> Given(opts).provider.Some?)
      && ("provider" in p ==> p["provider"] == Str(Given(opts).provider.value))
      && ("datasources" in p <==> Given(opts).datasources.Some?)
      && ("datasources" in p ==> p["datasources"] == Arr(Strings(resolved)))
      && "parameters" in p && p["parameters"].Obj?
    ensures var params := CreatePayload(name, opts, resolved)["parameters"].fields;
      var callers := Given(opts).parameters.GetOr(map[]);
      "prompt_template" in params
      && params["prompt_template"] == Str(Given(opts).promptTemplate.GetOr(DefaultPromptTemplate))
      && (forall k :: k != "prompt_template" ==> (k in params <==> k in callers))
      && (forall k :: k != "prompt_template" && k in callers ==> params[k] == callers[k])
  {
  }

  /** Nil options and options with every field nil give the same payload. */
  lemma CreatePayloadNilOptions(name: string, resolved: seq<string>)
    ensures CreatePayload(name, None, resolved) == CreatePayload(name, Some(NoCreateOptions), resolved)
  {
    CreatePayloadShape(name, None, resolved);
    CreatePayloadShape(name, Some(NoCreateOptions), resolved);
    var a := CreatePayload(name, None, resolved);
    var b := CreatePayload(name, Some(NoCreateOptions), resolved);
    assert a.Keys == b.Keys;
    assert a["parameters"].fields == b["parameters"].fields;
  }

  /**
   * The update payload: exactly the given fields, and always the
   * parameters: the given map (else the handle's), with "prompt_template"
   * set to the given template when one is given.
   */
  lemma UpdatePayloadShape(m: Mind, opts: UpdateOptions, resolved: seq<string>)
    ensures var p := UpdatePayload(m, opts, resolved);
      p.Keys <= {"name", "model_name", "provider", "datasources", "parameters"}
      && ("name" in p <==> opts.name.Some?)
      && ("name" in p ==> p["name"] == Str(opts.name.value))
      && ("model_name" in p <==> opts.modelName.Some?)
      && ("model_name" in p ==> p["model_name"] == Str(opts.modelName.value))
      && ("provider" in p <==> opts.provider.Some?)
      && ("provider" in p ==> p["provider"] == Str(opts.provider.value))
      && ("datasources" in p <==> opts.datasources.Some?)
      && ("datasources" in p ==> p["datasources"] == Arr(Strings(resolved)))
      && "parameters" in p && p["parameters"].Obj?
    ensures var params := UpdatePayload(m, opts, resolved)["parameters"].fields;
      var base := opts.parameters.GetOr(m.parameters);
      (forall k :: k != "prompt_template" ==> (k in params <==> k in base))
      && (forall k :: k != "prompt_template" && k in base ==> params[k] == base[k])
      && ("prompt_template" in params <==> opts.promptTemplate.Some? || "prompt_template" in base)
      && (opts.promptTemplate.Some? ==> params["prompt_template"] == Str(opts.promptTemplate.value))
      && (opts.promptTemplate.None? && "prompt_template" in base ==> params["prompt_template"] == base["prompt_template"])
  {
  }

  // ---------------------------------------------------------------------------
  // Create: call order and results
  // ---------------------------------------------------------------------------

  /**
   * `Submit`: resolution first (data-source requests only); a resolution
   * error stops before any mind request; otherwise one POST of the create
   * payload, and the call succeeds only when that POST was answered 201,
   * returning exactly the GET that follows it.
   */
  lemma SubmitTrace(n: Net, name: string, opts: Option<CreateOptions>)
    ensures var res := ResolveAll(n, CreateRefs(opts));
      var r := Submit(n, name, opts);
      res.net.log <= r.net.log
      && DatasourceFacts.OnlyDatasourceRequests(Issued(n, res.net))
      && (res.result.Failure? ==> r == Outcome(res.net, Failure(Wrapped("error checking datasource", res.result.error))))
      && (res.result.Success? ==>
            var post := PostMind(DefaultProject, CreatePayload(name, opts, res.result.value));
            Issued(res.net, r.net) == [post] || Issued(res.net, r.net) == [post, GetMind(DefaultProject, name)])
      && (r.result.Success? ==>
            res.result.Success?
            && var x := Exchange(res.net, PostMind(DefaultProject, CreatePayload(name, opts, res.result.value)));
            Call(x.reply).Success? && Call(x.reply).value.code == 201 && r == Get(x.net, name))
  {
    ResolveOnlyDatasourceRequests(n, CreateRefs(opts));
  }

  /**
   * Data-source requests followed by nothing, a POST of a mind, or that POST
   * and a mind GET: no mind is deleted, and the only mind GET is the last
   * request, right after the POST.
   */
  lemma MindRequestsAfterResolution(head: seq<Request>, tail: seq<Request>, post: Request, get: Request)
    requires DatasourceFacts.OnlyDatasourceRequests(head)
    requires post.PostMind? && get.GetMind?
    requires tail == [] || tail == [post] || tail == [post, get]
    ensures var t := head + tail;
      (forall i :: 0 <= i < |t| ==> !t[i].DeleteMind?)
      && (forall i :: 0 <= i < |t| && t[i].GetMind? ==> i == |t| - 1 && i > 0 && t[i - 1].PostMind?)
  {
    var t := head + tail;
    forall i | 0 <= i < |t|
      ensures !t[i].DeleteMind?
      ensures t[i].GetMind? ==> i == |t| - 1 && i > 0 && t[i - 1].PostMind?
    {
      if i < |head| {
        assert t[i] == head[i];
        assert IsDatasourceRequest(head[i]);
      }
    }
  }

  /** `Submit` never deletes a mind, and its only mind read is the last request, right after the POST. */
  lemma SubmitMindRequests(n: Net, name: string, opts: Option<CreateOptions>)
    ensures var t := Issued(n, Submit(n, name, opts).net);
      (forall i :: 0 <= i < |t| ==> !t[i].DeleteMind?)
      && (forall i :: 0 <= i < |t| && t[i].GetMind? ==> i == |t| - 1 && i > 0 && t[i - 1].PostMind?)
  {
    var res := ResolveAll(n, CreateRefs(opts));
    var r := Submit(n, name, opts);
    SubmitTrace(n, name, opts);
    IssuedSplit(n, res.net, r.net);
    var post := if res.result.Success? then PostMind(DefaultProject, CreatePayload(name, opts, res.result.value))
                else PostMind(DefaultProject, map[]);
    MindRequestsAfterResolution(Issued(n, res.net), Issued(res.net, r.net), post, GetMind(DefaultProject, name));
  }

  /** Without replace, `Create` never deletes a mind and issues no mind GET before its POST. */
  lemma CreateNoReplaceTrace(n: Net, name: string, opts: Option<CreateOptions>)
    ensures var t := Issued(n, Create(n, name, opts, false).net);
      (forall i :: 0 <= i < |t| ==> !t[i].DeleteMind?)
      && (forall i :: 0 <= i < |t| && t[i].GetMind? ==> i == |t| - 1 && i > 0 && t[i - 1].PostMind?)
  {
    SubmitMindRequests(n, name, opts);
  }

  /**
   * With replace and an existing mind: the GET, then exactly one DELETE; a
   * failed DELETE ends the call, and a successful one goes on to the
   * submission (resolution, POST and re-fetch) on the server it left.
   */
  lemma CreateReplaceFoundTrace(n: Net, name: string, opts: Option<CreateOptions>)
    requires Get(n, name).result.Success?
    ensures var r := Create(n, name, opts, true);
      var d := Drop(Get(n, name).net, name);
      var t := Issued(n, r.net);
      |t| >= 2 && t[..2] == [GetMind(DefaultProject, name), DeleteMind(DefaultProject, name)]
      && (d.result.Failure? ==>
            t == [GetMind(DefaultProject, name), DeleteMind(DefaultProject, name)]
            && r.result == Failure(Wrapped("error replacing mind", d.result.error)))
      && (d.result.Success? ==> forall i :: 2 <= i < |t| ==> !t[i].DeleteMind?)
      && (d.result.Success? ==> r == Submit(d.net, name, opts))
  {
    var g := Get(n, name);
    var d := Drop(g.net, name);
    if d.result.Success? {
      var r := Submit(d.net, name, opts);
      SubmitMindRequests(d.net, name, opts);
      IssuedSplit(n, d.net, r.net);
      assert Issued(n, d.net) == [GetMind(DefaultProject, name), DeleteMind(DefaultProject, name)];
      var t := Issued(n, r.net);
      forall i | 2 <= i < |t|
        ensures !t[i].DeleteMind?
      {
        assert t[i] == Issued(d.net, r.net)[i - 2];
      }
    }
  }

  /**
   * With replace and a not-found: the GET, then the submission (resolution,
   * POST and re-fetch) on the server the GET left; no DELETE anywhere.
   */
  lemma CreateReplaceNotFoundTrace(n: Net, name: string, opts: Option<CreateOptions>)
    requires Get(n, name).result.Failure? && IsNotFound(Get(n, name).result.error)
    ensures Create(n, name, opts, true) == Submit(Get(n, name).net, name, opts)
    ensures var t := Issued(n, Create(n, name, opts, true).net);
      |t| >= 1 && t[0] == GetMind(DefaultProject, name)
      && forall i :: 0 <= i < |t| ==> !t[i].DeleteMind?
  {
    var g := Get(n, name);
    var r := Submit(g.net, name, opts);
    SubmitMindRequests(g.net, name, opts);
    IssuedSplit(n, g.net, r.net);
    var t := Issued(n, r.net);
    forall i | 1 <= i < |t|
      ensures !t[i].DeleteMind?
    {
      assert t[i] == Issued(g.net, r.net)[i - 1];
    }
  }

  /** With replace and any other lookup error: that error, in context, after the one GET. */
  lemma CreateReplaceOtherErrorTrace(n: Net, name: string, opts: Option<CreateOptions>)
    requires Get(n, name).result.Failure? && !IsNotFound(Get(n, name).result.error)
    ensures Issued(n, Create(n, name, opts, true).net) == [GetMind(DefaultProject, name)]
    ensures Create(n, name, opts, true).result == Failure(Wrapped("error checking for existing mind", Get(n, name).result.error))
  {
  }

  /** The requests end with the POST of a body carrying `name` and the GET of that name. */
  predicate EndsWithPostAndGet(t: seq<Request>, name: string) {
    |t| >= 2 && t[|t| - 1] == GetMind(DefaultProject, name)
    && t[|t| - 2].PostMind? && t[|t| - 2].project == DefaultProject
    && "name" in t[|t| - 2].payload && t[|t| - 2].payload["name"] == Str(name)
  }

  /** A successful `Submit` ends with the POST of a body carrying the name and the GET of that name. */
  lemma SubmitReturnsRefetch(n: Net, name: string, opts: Option<CreateOptions>)
    requires Submit(n, name, opts).result.Success?
    ensures EndsWithPostAndGet(Issued(n, Submit(n, name, opts).net), name)
  {
    var res := ResolveAll(n, CreateRefs(opts));
    var r := Submit(n, name, opts);
    SubmitTrace(n, name, opts);
    CreatePayloadShape(name, opts, res.result.value);
    IssuedSplit(n, res.net, r.net);
  }

  /** Requests issued before a step that ends with the POST and GET still end with them. */
  lemma EndsWithPostAndGetExtends(a: Net, b: Net, c: Net, name: string)
    requires a.log <= b.log <= c.log && EndsWithPostAndGet(Issued(b, c), name)
    ensures EndsWithPostAndGet(Issued(a, c), name)
  {
    IssuedSplit(a, b, c);
  }

  /** A successful create ends with the POST of a body carrying the name and the GET of that name. */
  lemma CreateReturnsRefetch(n: Net, name: string, opts: Option<CreateOptions>, replace: bool)
    requires Create(n, name, opts, replace).result.Success?
    ensures EndsWithPostAndGet(Issued(n, Create(n, name, opts, replace).net), name)
  {
    if !replace {
      SubmitReturnsRefetch(n, name, opts);
    } else {
      var g := Get(n, name);
      if g.result.Success? {
        var d := Drop(g.net, name);
        SubmitReturnsRefetch(d.net, name, opts);
        EndsWithPostAndGetExtends(n, d.net, Submit(d.net, name, opts).net, name);
      } else {
        SubmitReturnsRefetch(g.net, name, opts);
        EndsWithPostAndGetExtends(n, g.net, Submit(g.net, name, opts).net, name);
      }
    }
  }

  /** What `Minds.Get` returns for a mind created with `opts` and names `names`, as the fault-free server stores it. */
  ghost predicate CreatedAs(m: Mind, name: string, opts: Option<CreateOptions>, refs: seq<DatasourceRef>) {
    m.project == DefaultProject
    && m.name == name
    && m.modelName == Given(opts).modelName.GetOr("")
    && m.provider == Given(opts).provider.GetOr("")
    && "prompt_template" in m.parameters
    && m.parameters["prompt_template"] == Str(Given(opts).promptTemplate.GetOr(DefaultPromptTemplate))
    && (forall k :: k != "prompt_template" ==> (k in m.parameters <==> k in Given(opts).parameters.GetOr(map[])))
    && (forall k :: k != "prompt_template" && k in Given(opts).parameters.GetOr(map[]) ==>
          m.parameters[k] == Given(opts).parameters.GetOr(map[])[k])
    && |m.datasources| == |refs|
    && (forall i :: 0 <= i < |refs| ==> RefName(refs[i]) == Some(m.datasources[i]))
  }

  /** The record the fault-free server keeps for a created mind: the payload tagged with the project. */
  function StoredRecord(name: string, opts: Option<CreateOptions>, names: seq<string>): Object {
    CreatePayload(name, opts, names)["project" := Str(DefaultProject)]
  }

  /** A fault-free POST of a named payload for a free name is answered 201 and stores the tagged payload. */
  lemma PostFreshMind(n: Net, name: string, opts: Option<CreateOptions>, names: seq<string>)
    requires n.script == [] && name !in MindsOf(n.store, DefaultProject).rows
    ensures var x := Exchange(n, PostMind(DefaultProject, CreatePayload(name, opts, names)));
      x.reply == Delivered(Ok(201, Obj(StoredRecord(name, opts, names))))
      && name in MindsOf(x.net.store, DefaultProject).rows
      && MindsOf(x.net.store, DefaultProject).rows[name] == Obj(StoredRecord(name, opts, names))
      && x.net.script == []
  {
    CreatePayloadShape(name, opts, names);
  }

  /** A fault-free `Minds.Get` of a stored object record decodes that record. */
  lemma GetStoredMind(n: Net, name: string)
    requires n.script == [] && name in MindsOf(n.store, DefaultProject).rows
    requires MindsOf(n.store, DefaultProject).rows[name].Obj?
    requires Decode(MindsOf(n.store, DefaultProject).rows[name].fields).Success?
    ensures Get(n, name).result == Success(Decode(MindsOf(n.store, DefaultProject).rows[name].fields).value)
  {
  }

  /** The stored record of a created mind decodes to the mind `CreatedAs` describes. */
  lemma DecodeStoredRecord(name: string, opts: Option<CreateOptions>, names: seq<string>)
    requires Given(opts).datasources.None? ==> names == []
    ensures Decode(StoredRecord(name, opts, names)).Success?
    ensures var m := Decode(StoredRecord(name, opts, names)).value;
      m.project == DefaultProject && m.name == name
      && m.modelName == Given(opts).modelName.GetOr("")
      && m.provider == Given(opts).provider.GetOr("")
      && m.parameters == CreatePayload(name, opts, names)["parameters"].fields
      && m.datasources == names
  {
    CreatePayloadShape(name, opts, names);
    var record := StoredRecord(name, opts, names);
    StringsRoundTrip(names);
    assert StringField(record, "project") == Success(DefaultProject);
    assert StringField(record, "name") == Success(name);
    assert StringField(record, "model_name") == Success(Given(opts).modelName.GetOr(""));
    assert StringField(record, "provider") == Success(Given(opts).provider.GetOr(""));
    assert StringField(record, "prompt_template") == Success("");
    assert ObjectField(record, "parameters") == Success(CreatePayload(name, opts, names)["parameters"].fields);
    assert StringListField(record, "datasources") == Success(names);
    assert StringField(record, "created_at") == Success("");
    assert StringField(record, "updated_at") == Success("");
  }

  /**
   * On a fault-free server without the mind, creating it with names or
   * handles for datasources succeeds, and reading it back gives the
   * project, the name, the model and provider (or ""), the parameters with
   * the prompt template (by default "{{input}}"), and the datasource names.
   */
  lemma CreateThenGet(n: Net, name: string, opts: Option<CreateOptions>)
    requires n.script == [] && name !in MindsOf(n.store, DefaultProject).rows
    requires forall i :: 0 <= i < |CreateRefs(opts)| ==> CreateRefs(opts)[i].ByName? || CreateRefs(opts)[i].ByHandle?
    ensures var r := Create(n, name, opts, false);
      r.result.Success? && CreatedAs(r.result.value, name, opts, CreateRefs(opts))
      && Issued(n, r.net) == [PostMind(DefaultProject, CreatePayload(name, opts, ResolveAll(n, CreateRefs(opts)).result.value)), GetMind(DefaultProject, name)]
  {
    var refs := CreateRefs(opts);
    ResolveNamesOnly(n, refs);
    var names := ResolveAll(n, refs).result.value;
    CreatePayloadShape(name, opts, names);
    PostFreshMind(n, name, opts, names);
    DecodeStoredRecord(name, opts, names);
    var x := Exchange(n, PostMind(DefaultProject, CreatePayload(name, opts, names)));
    GetStoredMind(x.net, name);
  }

  /** On a fault-free server, replacing an absent mind creates it: GET, POST, GET, and the mind read back is the one created. */
  lemma CreateReplaceAbsent(n: Net, name: string, opts: Option<CreateOptions>)
    requires n.script == [] && name !in MindsOf(n.store, DefaultProject).rows
    requires forall i :: 0 <= i < |CreateRefs(opts)| ==> CreateRefs(opts)[i].ByName? || CreateRefs(opts)[i].ByHandle?
    ensures var r := Create(n, name, opts, true);
      var g := Get(n, name);
      r.result.Success? && CreatedAs(r.result.value, name, opts, CreateRefs(opts))
      && var names := ResolveAll(g.net, CreateRefs(opts)).result;
         names.Success?
         && Issued(n, r.net) == [GetMind(DefaultProject, name),
                                 PostMind(DefaultProject, CreatePayload(name, opts, names.value)),
                                 GetMind(DefaultProject, name)]
  {
    GetAbsentMindIsNotFound(n, name);
    var g := Get(n, name);
    CreateReplaceNotFoundTrace(n, name, opts);
    CreateThenGet(g.net, name, opts);
    IssuedSplit(n, g.net, Create(g.net, name, opts, false).net);
  }

  /**
   * On a fault-free server, replacing a readable mind deletes it and
   * creates it afresh: GET, DELETE, POST, GET, and the mind read back is
   * the one created.
   */
  lemma CreateReplaceExisting(n: Net, name: string, opts: Option<CreateOptions>)
    requires n.script == [] && name in MindsOf(n.store, DefaultProject).rows
    requires MindsOf(n.store, DefaultProject).rows[name].Obj?
    requires Decode(MindsOf(n.store, DefaultProject).rows[name].fields).Success?
    requires forall i :: 0 <= i < |CreateRefs(opts)| ==> CreateRefs(opts)[i].ByName? || CreateRefs(opts)[i].ByHandle?
    ensures var r := Create(n, name, opts, true);
      var d := Drop(Get(n, name).net, name);
      r.result.Success? && CreatedAs(r.result.value, name, opts, CreateRefs(opts))
      && var names := ResolveAll(d.net, CreateRefs(opts)).result;
         names.Success?
         && Issued(n, r.net) == [GetMind(DefaultProject, name), DeleteMind(DefaultProject, name),
                                 PostMind(DefaultProject, CreatePayload(name, opts, names.value)),
                                 GetMind(DefaultProject, name)]
  {
    GetStoredMind(n, name);
    var g := Get(n, name);
    var d := Drop(g.net, name);
    DropFaultFree(g.net, name);
    assert name !in MindsOf(d.net.store, DefaultProject).rows;
    CreateReplaceFoundTrace(n, name, opts);
    CreateThenGet(d.net, name, opts);
    IssuedSplit(n, g.net, d.net);
    IssuedSplit(n, d.net, Create(d.net, name, opts, false).net);
  }

  // ---------------------------------------------------------------------------
  // The handle: update, attach and detach
  // ---------------------------------------------------------------------------

  /**
   * `Update` changes nothing on the handle but its name and parameters.
   * A resolution error leaves the handle as it was. Once the payload is
   * built, the handle's parameters are the map sent when no parameters
   * were given (the payload shares the handle's map), and its own
   * otherwise. The new name is taken only on success.
   */
  lemma UpdateHandleEffect(n: Net, m: Mind, opts: UpdateOptions)
    ensures var refs := if opts.datasources.Some? then opts.datasources.value else [];
      var res := ResolveAll(n, refs);
      var r := Update(n, m, opts);
      r.mind.(name := m.name, parameters := m.parameters) == m
      && (res.result.Failure? ==> r.mind == m)
      && (res.result.Success? && opts.parameters.None? ==>
            r.mind.parameters == UpdatePayload(m, opts, res.result.value)["parameters"].fields)
      && (opts.parameters.Some? ==> r.mind.parameters == m.parameters)
      && (r.error.None? ==> r.mind.name == opts.name.GetOr(m.name))
      && (r.error.Some? ==> r.mind.name == m.name)
  {
    var refs := if opts.datasources.Some? then opts.datasources.value else [];
    var res := ResolveAll(n, refs);
    if res.result.Success? {
      var x := Exchange(res.net, PatchMind(m.project, m.name, UpdatePayload(m, opts, res.result.value)));
      var accepted := Call(x.reply).Success? && Call(x.reply).value.code == 200;
      assert Update(n, m, opts).mind == if accepted then Renamed(Aliased(m, opts), opts.name) else Aliased(m, opts);
      assert accepted <==> Update(n, m, opts).error.None?;
    }
  }

  /**
   * `Update` addresses the handle's own project and name, issues no mind
   * GET (the handle is not refreshed), and on success its last request is
   * the PATCH of the update payload.
   */
  lemma UpdateTrace(n: Net, m: Mind, opts: UpdateOptions)
    ensures var refs := if opts.datasources.Some? then opts.datasources.value else [];
      var res := ResolveAll(n, refs);
      var r := Update(n, m, opts);
      var t := Issued(n, r.net);
      (forall i :: 0 <= i < |t| ==> !t[i].GetMind? && !t[i].DeleteMind? && !t[i].PostMind?)
      && (res.result.Failure? ==> r.net == res.net)
      && (res.result.Success? ==> Issued(res.net, r.net) == [PatchMind(m.project, m.name, UpdatePayload(m, opts, res.result.value))])
  {
    var refs := if opts.datasources.Some? then opts.datasources.value else [];
    var res := ResolveAll(n, refs);
    var r := Update(n, m, opts);
    ResolveOnlyDatasourceRequests(n, refs);
    if res.result.Success? {
      var x := Exchange(res.net, PatchMind(m.project, m.name, UpdatePayload(m, opts, res.result.value)));
      assert r.net == x.net;
    }
    IssuedSplit(n, res.net, r.net);
    var t := Issued(n, r.net);
    var head := Issued(n, res.net);
    forall i | 0 <= i < |t|
      ensures !t[i].GetMind? && !t[i].DeleteMind? && !t[i].PostMind?
    {
      if i < |head| {
        assert t[i] == head[i];
        assert IsDatasourceRequest(head[i]);
      }
    }
  }

  /**
   * On a fault-free server holding the mind, a rename to a free name
   * succeeds and the handle and the server agree on the new name.
   */
  lemma UpdateRenameAgrees(n: Net, m: Mind, newName: string)
    requires n.script == [] && m.name in MindsOf(n.store, m.project).rows
    requires newName !in MindsOf(n.store, m.project).rows
    ensures var r := Update(n, m, UpdateOptions(Some(newName), None, None, None, None, None));
      r.error.None? && r.mind.name == newName
      && newName in MindsOf(r.net.store, m.project).rows
      && m.name !in MindsOf(r.net.store, m.project).rows
  {
    var opts := UpdateOptions(Some(newName), None, None, None, None, None);
    UpdatePayloadShape(m, opts, []);
  }

  /** `AddDatasource` and `DelDatasource` change only the handle's datasources, and nothing on error. */
  lemma MutationsTouchOnlyDatasources(n: Net, m: Mind, ref: DatasourceRef)
    ensures var a := AddDatasource(n, m, ref);
      a.mind == m.(datasources := a.mind.datasources) && (a.error.Some? ==> a.mind == m)
    ensures var d := DelDatasource(n, m, ref);
      d.mind == m.(datasources := d.mind.datasources) && (d.error.Some? ==> d.mind == m)
  {
    var checked := CheckDatasource(n, ref);
    if checked.result.Success? {
      RefreshTouchesOnlyDatasources(checked.net, m, AttachDatasource(m.project, m.name, checked.result.value), "error adding datasource to mind");
    }
    if ref.ByName? || ref.ByHandle? {
      RefreshTouchesOnlyDatasources(n, m, DetachDatasource(m.project, m.name, RefName(ref).value), "error deleting datasource from mind");
    }
  }

  /** The shared refresh changes only the handle's datasources, and nothing on error. */
  lemma RefreshTouchesOnlyDatasources(n: Net, m: Mind, req: Request, context: string)
    ensures var r := Refresh(n, m, req, context);
      r.mind == m.(datasources := r.mind.datasources) && (r.error.Some? ==> r.mind == m)
  {
  }

  /**
   * On success, the handle's datasources are exactly those of a `Minds.Get`
   * of the mind issued right after the attach, which is the last request.
   */
  lemma AddDatasourceRefetches(n: Net, m: Mind, ref: DatasourceRef)
    requires AddDatasource(n, m, ref).error.None?
    ensures var r := AddDatasource(n, m, ref);
      var t := Issued(n, r.net);
      RefName(ref).Some?
      && |t| >= 2 && t[|t| - 2] == AttachDatasource(m.project, m.name, RefName(ref).value)
      && t[|t| - 1] == GetMind(DefaultProject, m.name)
      && var x := Exchange(CheckDatasource(n, ref).net, AttachDatasource(m.project, m.name, RefName(ref).value));
         Get(x.net, m.name).net == r.net && Get(x.net, m.name).result.Success?
         && r.mind.datasources == Get(x.net, m.name).result.value.datasources
  {
    var checked := CheckDatasource(n, ref);
    var x := Exchange(checked.net, AttachDatasource(m.project, m.name, checked.result.value));
    var g := Get(x.net, m.name);
    assert g.net == AddDatasource(n, m, ref).net;
    IssuedSplit(n, checked.net, x.net);
    IssuedSplit(n, x.net, g.net);
  }

  /** `DelDatasource` takes only a name or a handle: anything else is refused before any request. */
  lemma DelDatasourceRefuses(n: Net, m: Mind, ref: DatasourceRef)
    requires !ref.ByName? && !ref.ByHandle?
    ensures DelDatasource(n, m, ref) == Mutation(n, m, Some(UnknownDatasourceType(TypeName(ref))))
  {
  }

  /** On success, the detach of the given name was followed by a re-fetch whose datasources the handle takes. */
  lemma DelDatasourceRefetches(n: Net, m: Mind, ref: DatasourceRef)
    requires DelDatasource(n, m, ref).error.None?
    ensures var r := DelDatasource(n, m, ref);
      var t := Issued(n, r.net);
      (ref.ByName? || ref.ByHandle?)
      && t == [DetachDatasource(m.project, m.name, RefName(ref).value), GetMind(DefaultProject, m.name)]
      && var x := Exchange(n, DetachDatasource(m.project, m.name, RefName(ref).value));
         Get(x.net, m.name).net == r.net && Get(x.net, m.name).result.Success?
         && r.mind.datasources == Get(x.net, m.name).result.value.datasources
  {
    var x := Exchange(n, DetachDatasource(m.project, m.name, RefName(ref).value));
    var g := Get(x.net, m.name);
    assert g.net == DelDatasource(n, m, ref).net;
  }

  /**
   * On a fault-free server, after a successful refresh a further
   * `Minds.Get` reports the same datasources the handle now holds.
   */
  lemma RefreshAgreesWithServer(n: Net, m: Mind, req: Request, context: string)
    requires n.script == [] && Refresh(n, m, req, context).error.None?
    ensures var r := Refresh(n, m, req, context);
      Get(r.net, m.name).result.Success? && Get(r.net, m.name).result.value.datasources == r.mind.datasources
  {
    var x := Exchange(n, req);
    var g := Get(x.net, m.name);
    assert Exchange(g.net, GetMind(DefaultProject, m.name)).reply == Exchange(x.net, GetMind(DefaultProject, m.name)).reply;
  }

  /** Attaching on a fault-free server leaves the handle agreeing with a fresh read of the mind. */
  lemma AddDatasourceAgreesWithServer(n: Net, m: Mind, ref: DatasourceRef)
    requires n.script == [] && AddDatasource(n, m, ref).error.None?
    ensures var r := AddDatasource(n, m, ref);
      Get(r.net, m.name).result.Success? && Get(r.net, m.name).result.value.datasources == r.mind.datasources
  {
    var checked := CheckDatasource(n, ref);
    RefreshAgreesWithServer(checked.net, m, AttachDatasource(m.project, m.name, checked.result.value), "error adding datasource to mind");
  }

  /** Detaching on a fault-free server leaves the handle agreeing with a fresh read of the mind. */
  lemma DelDatasourceAgreesWithServer(n: Net, m: Mind, ref: DatasourceRef)
    requires n.script == [] && DelDatasource(n, m, ref).error.None?
    ensures var r := DelDatasource(n, m, ref);
      Get(r.net, m.name).result.Success? && Get(r.net, m.name).result.value.datasources == r.mind.datasources
  {
    RefreshAgreesWithServer(n, m, DetachDatasource(m.project, m.name, RefName(ref).value), "error deleting datasource from mind");
  }

  // ---------------------------------------------------------------------------
  // Completion host
  // ---------------------------------------------------------------------------

  /** The API host can be recovered from the completion host. */
  lemma LlmHostInverse(host: string)
    ensures ApiHostOf(LlmHost(host)) == Some(host)
  {
    assert CompletionUrl(Url("https", host, "")).host == LlmHost(host);
  }

  /** Different API hosts get different completion hosts. */
  lemma LlmHostInjective(h1: string, h2: string)
    requires LlmHost(h1) == LlmHost(h2)
    ensures h1 == h2
  {
    LlmHostInverse(h1);
    LlmHostInverse(h2);
  }

  /** The completion host is never the API host itself. */
  lemma LlmHostDiffers(host: string)
    ensures LlmHost(host) != host
  {
    if host != HostedApiHost {
      assert |LlmHost(host)| == |host| + 3;
    }
  }
}

=== FILE: minds.dfy ===
/**
 * The mind manager and the mind handle (minds.go): datasource-reference
 * resolution, the create and update payloads, create-or-replace, the
 * handle's update and datasource attachment, and the completion host.
 */
module Minds {
  import opened Wrappers
  import opened Json
  import opened Exceptions
  import opened RestApi
  import opened Server
  import Datasources

  /** The project every manager call addresses. */
  const DefaultProject := "mindsdb"

  /** The prompt template used when a mind is created without one. */
  const DefaultPromptTemplate := "{{input}}"

  /** A mind handle: the fields decoded from the server (the client back-references are context, not state). */
  datatype Mind = Mind(
    project: string,
    name: string,
    modelName: string,
    provider: string,
    promptTemplate: string,
    parameters: Object,
    datasources: seq<string>,
    createdAt: string,
    updatedAt: string)

  /** The mind decoding a JSON null leaves behind: every field at its zero value. */
  const ZeroMind := Mind("", "", "", "", "", map[], [], "", "")

  /** `json.Marshal` of a mind. */
  function Encode(m: Mind): Object {
    map[
      "project" := Str(m.project),
      "name" := Str(m.name),
      "model_name" := Str(m.modelName),
      "provider" := Str(m.provider),
      "prompt_template" := Str(m.promptTemplate),
      "parameters" := Obj(m.parameters),
      "datasources" := Arr(Strings(m.datasources)),
      "created_at" := Str(m.createdAt),
      "updated_at" := Str(m.updatedAt)]
  }

  /** `json.Unmarshal` of an object into a `Mind`; unknown members are ignored. */
  function Decode(o: Object): Result<Mind, string> {
    var project :- StringField(o, "project");
    var name :- StringField(o, "name");
    var modelName :- StringField(o, "model_name");
    var provider :- StringField(o, "provider");
    var promptTemplate :- StringField(o, "prompt_template");
    var parameters :- ObjectField(o, "parameters");
    var datasources :- StringListField(o, "datasources");
    var createdAt :- StringField(o, "created_at");
    var updatedAt :- StringField(o, "updated_at");
    Success(Mind(project, name, modelName, provider, promptTemplate, parameters, datasources, createdAt, updatedAt))
  }

  /** What `Minds.Get` makes of the reply to `GET /projects/{project}/minds/{name}`. */
  function GetResult(reply: Reply): (r: Result<Mind, Error>)
    ensures r.Success? ==> Call(reply).Success?
  {
    match Call(reply)
    case Failure(e) => Failure(Wrapped("error getting mind", e))
    case Success(resp) =>
      match resp.doc
      case Some(Null) => Success(ZeroMind)
      case Some(Obj(o)) =>
        (match Decode(o)
         case Failure(d) => Failure(Wrapped("error decoding mind response", Malformed(d)))
         case Success(m) => Success(m))
      case _ => Failure(Wrapped("error decoding mind response", Malformed("not an object")))
  }

  /** `Minds.Get`: one GET in the manager's project, which never changes the server. */
  function Get(n: Net, name: string): (r: Outcome<Mind>)
    ensures r.net.log == n.log + [GetMind(DefaultProject, name)]
    ensures r.net.store == n.store
    ensures n.script == [] ==> r.net.script == []
  {
    var x := Exchange(n, GetMind(DefaultProject, name));
    Outcome(x.net, GetResult(x.reply))
  }

  /** Decoding a listing element by element; the first element that is not a decodable object aborts. */
  function DecodeAll(items: seq<Value>): (r: Result<seq<Mind>, Error>)
    ensures r.Success? ==> |r.value| == |items|
  {
    if |items| == 0 then Success([])
    else
      var head :- match items[0]
        case Obj(o) =>
          (match Decode(o)
           case Failure(d) => Failure(Wrapped("error decoding minds response", Malformed(d)))
           case Success(m) => Success(m))
        case _ => Failure(Wrapped("error decoding minds response", Malformed("not an object")));
      var tail :- DecodeAll(items[1..]);
      Success([head] + tail)
  }

  /** `Minds.List`: one GET of the project's minds, all of them decoded in order. */
  function List(n: Net): (r: Outcome<seq<Mind>>)
    ensures r.net.log == n.log + [ListMinds(DefaultProject)]
    ensures r.net.store == n.store
  {
    var x := Exchange(n, ListMinds(DefaultProject));
    var result :=
      match Call(x.reply)
      case Failure(e) => Failure(Wrapped("error listing minds", e))
      case Success(resp) =>
        match resp.doc
        case Some(Null) => Success([])
        case Some(Arr(items)) => DecodeAll(items)
        case _ => Failure(Wrapped("error decoding minds response", Malformed("not an array")));
    Outcome(x.net, result)
  }

  /** `Minds.Drop`: one DELETE; success exactly on 200. */
  function Drop(n: Net, name: string): (r: Outcome<()>)
    ensures r.net.log == n.log + [DeleteMind(DefaultProject, name)]
    ensures n.script == [] ==> r.net.script == []
    ensures var reply := Exchange(n, DeleteMind(DefaultProject, name)).reply;
      r.result.Success? <==> reply.Delivered? && reply.response.code == 200
  {
    var x := Exchange(n, DeleteMind(DefaultProject, name));
    match Call(x.reply)
    case Failure(e) => Outcome(x.net, Failure(Wrapped("error deleting mind", e)))
    case Success(resp) =>
      if resp.code != 200 then Outcome(x.net, Failure(UnexpectedStatus(resp.code, resp.body)))
      else Outcome(x.net, Success(()))
  }

  /**
   * What a caller may pass where a datasource is expected: a name, a
   * `*Datasource` handle, a `DatabaseConfig` value, a `*DatabaseConfig`,
   * or a value of any other Go type (named by `typeName`).
   */
  datatype DatasourceRef =
    | ByName(name: string)
    | ByHandle(datasource: Datasources.Datasource)
    | ByConfig(config: Datasources.DatabaseConfig)
    | ByConfigPtr(pointee: Datasources.DatabaseConfig)
    | OtherType(typeName: string)

  /** What `%T` prints for a reference. */
  function TypeName(ref: DatasourceRef): string {
    match ref
    case ByName(_) => "string"
    case ByHandle(_) => "*minds.Datasource"
    case ByConfig(_) => "minds.DatabaseConfig"
    case ByConfigPtr(_) => "*minds.DatabaseConfig"
    case OtherType(t) => t
  }

  /** The name a reference stands for, for the three kinds resolution accepts. */
  function RefName(ref: DatasourceRef): Option<string> {
    match ref
    case ByName(s) => Some(s)
    case ByHandle(d) => Some(d.name)
    case ByConfig(c) => Some(c.name)
    case _ => None
  }

  /**
   * `_checkDatasource`: a name is itself, a handle is its name, a config is
   * looked up and created (without replace) when the server does not have
   * it; every other type is refused.
   */
  function CheckDatasource(n: Net, ref: DatasourceRef): (r: Outcome<string>)
    ensures n.log <= r.net.log
    ensures n.script == [] ==> r.net.script == []
    ensures r.result.Success? ==> RefName(ref) == Some(r.result.value)
    ensures RefName(ref).None? ==> r == Outcome(n, Failure(UnknownDatasourceType(TypeName(ref))))
  {
    match ref
    case ByName(s) => Outcome(n, Success(s))
    case ByHandle(d) => Outcome(n, Success(d.name))
    case ByConfig(c) =>
      var g := Datasources.Get(n, c.name);
      (match g.result
       case Success(_) => Outcome(g.net, Success(c.name))
       case Failure(e) =>
         if IsNotFound(e) then
           var created := Datasources.Create(g.net, c, false);
           if created.result.Failure? then
             Outcome(created.net, Failure(Wrapped("error creating datasource", created.result.error)))
           else Outcome(created.net, Success(c.name))
         else Outcome(g.net, Failure(Wrapped("error checking for existing datasource", e))))
    case _ => Outcome(n, Failure(UnknownDatasourceType(TypeName(ref))))
  }

  /** The resolution loop of `Create` and `Update`: names in input order; the first failure aborts. */
  function ResolveAll(n: Net, refs: seq<DatasourceRef>): (r: Outcome<seq<string>>)
    ensures n.log <= r.net.log
    ensures n.script == [] ==> r.net.script == []
    ensures r.result.Success? ==> |r.result.value| == |refs|
    ensures r.result.Success? ==> forall i :: 0 <= i < |refs| ==> RefName(refs[i]) == Some(r.result.value[i])
    decreases |refs|
  {
    if |refs| == 0 then Outcome(n, Success([]))
    else
      var first := CheckDatasource(n, refs[0]);
      match first.result
      case Failure(e) => Outcome(first.net, Failure(e))
      case Success(name) =>
        var rest := ResolveAll(first.net, refs[1..]);
        match rest.result
        case Failure(e) => Outcome(rest.net, Failure(e))
        case Success(names) => Outcome(rest.net, Success([name] + names))
  }

  /** `CreateMindOptions`; `None` is Go's nil. */
  datatype CreateOptions = CreateOptions(
    modelName: Option<string>,
    provider: Option<string>,
    promptTemplate: Option<string>,
    datasources: Option<seq<DatasourceRef>>,
    parameters: Option<Object>)

  /** Options with every field nil. */
  const NoCreateOptions := CreateOptions(None, None, None, None, None)

  /** Adds `key` when `value` is given. */
  function PutIfGiven(o: Object, key: string, value: Option<string>): Object {
    if value.Some? then o[key := Str(value.value)] else o
  }

  /**
   * The body of `Minds.Create`'s POST: the name; model name, provider and
   * the resolved datasource names when given; and the parameters with
   * "prompt_template" set to the given template or the default.
   */
  function CreatePayload(name: string, opts: Option<CreateOptions>, resolved: seq<string>): Object {
    match opts
    case None =>
      map["name" := Str(name), "parameters" := Obj(map["prompt_template" := Str(DefaultPromptTemplate)])]
    case Some(o) =>
      var named := map["name" := Str(name)];
      var described := PutIfGiven(PutIfGiven(named, "model_name", o.modelName), "provider", o.provider);
      var linked := if o.datasources.Some? then described["datasources" := Arr(Strings(resolved))] else described;
      var parameters := o.parameters.GetOr(map[])["prompt_template" := Str(o.promptTemplate.GetOr(DefaultPromptTemplate))];
      linked["parameters" := Obj(parameters)]
  }

  /** The references `Create` resolves: the given list, or none. */
  function CreateRefs(opts: Option<CreateOptions>): seq<DatasourceRef> {
    if opts.Some? && opts.value.datasources.Some? then opts.value.datasources.value else []
  }

  /** The part of `Minds.Create` after the replace check: resolve, POST, expect 201, re-fetch. */
  function Submit(n: Net, name: string, opts: Option<CreateOptions>): (r: Outcome<Mind>)
    ensures n.log <= r.net.log
  {
    var resolved := ResolveAll(n, CreateRefs(opts));
    match resolved.result
    case Failure(e) => Outcome(resolved.net, Failure(Wrapped("error checking datasource", e)))
    case Success(names) =>
      var x := Exchange(resolved.net, PostMind(DefaultProject, CreatePayload(name, opts, names)));
      match Call(x.reply)
      case Failure(e) => Outcome(x.net, Failure(Wrapped("error creating mind", e)))
      case Success(resp) =>
        if resp.code != 201 then Outcome(x.net, Failure(UnexpectedStatus(resp.code, resp.body)))
        else Get(x.net, name)
  }

  /** `Minds.Create`: the replace check of the datasource manager, then `Submit`. */
  function Create(n: Net, name: string, opts: Option<CreateOptions>, replace: bool): (r: Outcome<Mind>)
    ensures n.log <= r.net.log
  {
    if !replace then Submit(n, name, opts)
    else
      var g := Get(n, name);
      match g.result
      case Success(_) =>
        var d := Drop(g.net, name);
        (match d.result
         case Failure(e) => Outcome(d.net, Failure(Wrapped("error replacing mind", e)))
         case Success(_) => Submit(d.net, name, opts))
      case Failure(e) =>
        if IsNotFound(e) then Submit(g.net, name, opts)
        else Outcome(g.net, Failure(Wrapped("error checking for existing mind", e)))
  }

  /** `UpdateMindOptions`; `None` is Go's nil. */
  datatype UpdateOptions = UpdateOptions(
    name: Option<string>,
    modelName: Option<string>,
    provider: Option<string>,
    promptTemplate: Option<string>,
    datasources: Option<seq<DatasourceRef>>,
    parameters: Option<Object>)

  /**
   * The body of `Update`'s PATCH: the given fields only, and always the
   * parameters: the given map, else the handle's, with "prompt_template"
   * overridden when a template is given.
   */
  function UpdatePayload(m: Mind, opts: UpdateOptions, resolved: seq<string>): Object {
    var linked: Object := if opts.datasources.Some? then map["datasources" := Arr(Strings(resolved))] else map[];
    var described := PutIfGiven(PutIfGiven(PutIfGiven(linked, "name", opts.name), "model_name", opts.modelName), "provider", opts.provider);
    var base := opts.parameters.GetOr(m.parameters);
    var parameters := if opts.promptTemplate.Some? then base["prompt_template" := Str(opts.promptTemplate.value)] else base;
    described["parameters" := Obj(parameters)]
  }

  /** The outcome of a handle mutation: the server afterwards, the handle afterwards, and the error if any. */
  datatype Mutation = Mutation(net: Net, mind: Mind, error: Option<Error>)

  /** The handle after a successful PATCH: renamed only when a different name was given. */
  function Renamed(m: Mind, name: Option<string>): Mind {
    if name.Some? && name.value != m.name then m.(name := name.value) else m
  }

  /**
   * The handle once the payload is built: without given parameters the
   * payload's parameters are the handle's own map, so a given template is
   * written into the handle whatever the PATCH is answered.
   */
  function Aliased(m: Mind, opts: UpdateOptions): Mind {
    if opts.parameters.None? && opts.promptTemplate.Some? then
      m.(parameters := m.parameters["prompt_template" := Str(opts.promptTemplate.value)])
    else m
  }

  /** `Mind.Update`: resolve, PATCH the handle's own project and name, and on 200 apply the rename locally. */
  function Update(n: Net, m: Mind, opts: UpdateOptions): (r: Mutation)
    ensures n.log <= r.net.log
  {
    var refs := if opts.datasources.Some? then opts.datasources.value else [];
    var resolved := ResolveAll(n, refs);
    match resolved.result
    case Failure(e) => Mutation(resolved.net, m, Some(Wrapped("error checking datasource", e)))
    case Success(names) =>
      var touched := Aliased(m, opts);
      var x := Exchange(resolved.net, PatchMind(m.project, m.name, UpdatePayload(m, opts, names)));
      match Call(x.reply)
      case Failure(e) => Mutation(x.net, touched, Some(Wrapped("error updating mind", e)))
      case Success(resp) =>
        if resp.code != 200 then Mutation(x.net, touched, Some(UnexpectedStatus(resp.code, resp.body)))
        else Mutation(x.net, Renamed(touched, opts.name), None)
  }

  /**
   * The shared tail of `AddDatasource` and `DelDatasource`: issue the
   * sub-resource request, expect 200, re-fetch the mind and take only its
   * datasources.
   */
  function Refresh(n: Net, m: Mind, req: Request, context: string): (r: Mutation)
    ensures |r.net.log| > |n.log| && r.net.log[..|n.log|] == n.log && r.net.log[|n.log|] == req
    ensures n.script == [] ==> r.net.script == []
  {
    var x := Exchange(n, req);
    match Call(x.reply)
    case Failure(e) => Mutation(x.net, m, Some(Wrapped(context, e)))
    case Success(resp) =>
      if resp.code != 200 then Mutation(x.net, m, Some(UnexpectedStatus(resp.code, resp.body)))
      else
        (var refetched := Get(x.net, m.name);
         match refetched.result
         case Failure(e) => Mutation(refetched.net, m, Some(Wrapped("error getting updated mind", e)))
         case Success(updated) => Mutation(refetched.net, m.(datasources := updated.datasources), None))
  }

  /** `Mind.AddDatasource`: resolve the reference, attach it, refresh the datasources. */
  function AddDatasource(n: Net, m: Mind, ref: DatasourceRef): (r: Mutation)
    ensures n.log <= r.net.log
    ensures n.script == [] ==> r.net.script == []
  {
    var checked := CheckDatasource(n, ref);
    match checked.result
    case Failure(e) => Mutation(checked.net, m, Some(Wrapped("error checking datasource", e)))
    case Success(name) =>
      Refresh(checked.net, m, AttachDatasource(m.project, m.name, name), "error adding datasource to mind")
  }

  /** `Mind.DelDatasource`: only a name or a handle is accepted; detach it, refresh the datasources. */
  function DelDatasource(n: Net, m: Mind, ref: DatasourceRef): (r: Mutation)
    ensures n.log <= r.net.log
    ensures n.script == [] ==> r.net.script == []
  {
    match ref
    case ByName(s) => Refresh(n, m, DetachDatasource(m.project, m.name, s), "error deleting datasource from mind")
    case ByHandle(d) => Refresh(n, m, DetachDatasource(m.project, m.name, d.name), "error deleting datasource from mind")
    case _ => Mutation(n, m, Some(UnknownDatasourceType(TypeName(ref))))
  }

  /** The API host of the hosted service and its completion host. */
  const HostedApiHost := "mdb.ai"
  const HostedLlmHost := "llm.mdb.ai"

  /** The completion host `Completion` derives from the API host. */
  function LlmHost(apiHost: string): string {
    if apiHost == HostedApiHost then HostedLlmHost else "ai." + apiHost
  }

  /** The API host a completion host was derived from, if any. */
  function ApiHostOf(llmHost: string): Option<string> {
    if llmHost == HostedLlmHost then Some(HostedApiHost)
    else if |llmHost| >= 3 && llmHost[..3] == "ai." then Some(llmHost[3..])
    else None
  }

  /** The parts of a parsed URL the rewrite touches: the scheme it keeps, the host it replaces and the path it clears. */
  datatype Url = Url(scheme: string, host: string, path: string)

  /** The completion client's base URL: the API URL with the host rewritten and the path cleared. */
  function CompletionUrl(api: Url): (r: Url)
    ensures r.scheme == api.scheme && r.path == ""
    ensures ApiHostOf(r.host) == Some(api.host)
    ensures api.host == HostedApiHost ==> r.host == HostedLlmHost
    ensures api.host != HostedApiHost ==> r.host == "ai." + api.host
  {
    var host := LlmHost(api.host);
    assert api.host != HostedApiHost ==> host[3..] == api.host && host[0] == 'a' != HostedLlmHost[0];
    api.(host := host, path := "")
  }
}

=== FILE: rest_api.dfy ===
/**
 * The REST layer (rest_api.go): base-URL normalisation, the authorization
 * header, the status translator, and the requests and replies the managers
 * exchange with the server.
 */
module RestApi {
  import opened Wrappers
  import opened Json
  import opened Exceptions

  const DefaultBaseUrl := "https://mdb.ai"

  /** What `NewRestAPI` keeps: the API key and the normalised base URL. */
  datatype ApiClient = ApiClient(apiKey: string, baseUrl: string)

  /** An empty base URL is replaced by the hosted service's. */
  function WithDefault(baseUrl: string): (u: string)
    ensures u != ""
    ensures baseUrl == "" ==> u == DefaultBaseUrl
    ensures baseUrl != "" ==> u == baseUrl
  {
    if baseUrl == "" then DefaultBaseUrl else baseUrl
  }

  /** A `/` is appended unless the URL already ends in one. */
  function WithSlash(u: string): (r: string)
    requires u != ""
    ensures u <= r && r[|r| - 1] == '/'
    ensures u[|u| - 1] == '/' ==> r == u
    ensures u[|u| - 1] != '/' ==> r == u + "/"
  {
    if u[|u| - 1] != '/' then u + "/" else u
  }

  /** The number of bytes a character takes in UTF-8, the encoding of Go strings. */
  function Utf8Width(c: char): (w: nat)
    ensures 1 <= w <= 4
    ensures w == 1 <==> (c as int) < 0x80
  {
    if (c as int) < 0x80 then 1
    else if (c as int) < 0x800 then 2
    else if (c as int) < 0x1_0000 then 3
    else 4
  }

  /** Go's `len` of a string: its length in UTF-8 bytes, not in characters. */
  function Utf8Len(s: string): (n: nat)
    ensures |s| <= n <= 4 * |s|
    ensures n == |s| <==> forall i :: 0 <= i < |s| ==> (s[i] as int) < 0x80
  {
    if s == [] then 0 else Utf8Width(s[0]) + Utf8Len(s[1..])
  }

  /**
   * `NewRestAPI` as written. The suffix test slices the last four bytes
   * and compares them with the five-byte "/api/"; strings of different
   * byte lengths are never equal, so "api/" is always appended. `None` is
   * the slice panic Go raises when the slashed URL is shorter than four
   * bytes.
   */
  function NewRestApi(apiKey: string, baseUrl: string): (r: Option<ApiClient>)
    ensures r.Some? <==> Utf8Len(WithSlash(WithDefault(baseUrl))) >= 4
    ensures r.Some? ==> r.value.apiKey == apiKey
    ensures r.Some? ==> r.value.baseUrl == WithSlash(WithDefault(baseUrl)) + "api/"
  {
    var u := WithSlash(WithDefault(baseUrl));
    if Utf8Len(u) < 4 then None
    else
      var lastFourBytes := 4;
      assert Utf8Len("/api/") == 5 by { assert "/api/"[1..] == "api/"; assert "api/"[1..] == "pi/"; assert "pi/"[1..] == "i/"; assert "i/"[1..] == "/"; }
      var appendApi := lastFourBytes != Utf8Len("/api/");
      Some(ApiClient(apiKey, if appendApi then u + "api/" else u))
  }

  /** Whether `s` ends with `suffix`. */
  predicate EndsWith(s: string, suffix: string) {
    |suffix| <= |s| && s[|s| - |suffix|..] == suffix
  }

  /** The normalisation evidently intended: "api/" is appended only when the slashed URL does not already end in "/api/". */
  function NormalizeIntended(baseUrl: string): (u: string)
    ensures EndsWith(u, "/api/")
    ensures WithSlash(WithDefault(baseUrl)) <= u
    ensures EndsWith(WithSlash(WithDefault(baseUrl)), "/api/") ==> u == WithSlash(WithDefault(baseUrl))
  {
    var slashed := WithSlash(WithDefault(baseUrl));
    if EndsWith(slashed, "/api/") then slashed else slashed + "api/"
  }

  /** `NewRestAPI` with the intended suffix test; it never panics. */
  function NewRestApiIntended(apiKey: string, baseUrl: string): (r: ApiClient)
    ensures r.apiKey == apiKey && EndsWith(r.baseUrl, "/api/")
  {
    ApiClient(apiKey, NormalizeIntended(baseUrl))
  }

  const AuthorizationHeader := "Authorization"
  const BearerPrefix := "Bearer "

  /** `_headers`: one Authorization header carrying the API key as a bearer token. */
  function Headers(apiKey: string): (h: map<string, string>)
    ensures h.Keys == {AuthorizationHeader}
  {
    map[AuthorizationHeader := BearerPrefix + apiKey]
  }

  /** The key a bearer Authorization value carries, if it is one. */
  function BearerKey(value: string): Option<string> {
    if BearerPrefix <= value then Some(value[|BearerPrefix|..]) else None
  }

  /**
   * `_raiseForStatus`: 404, 403 and 401 map to their own kinds carrying the
   * body; any other code in [400, 600) is an unknown error carrying the
   * status line and the body; every other code is no error.
   */
  function RaiseForStatus(code: int, status: string, body: string): (r: Option<ApiError>)
    ensures r.Some? <==> 400 <= code < 600
    ensures code == 404 ==> r == Some(ObjectNotFound(body))
    ensures code == 403 ==> r == Some(Forbidden(body))
    ensures code == 401 ==> r == Some(Unauthorized(body))
    ensures 400 <= code < 600 && code !in {401, 403, 404} ==> r == Some(UnknownError(status + ": " + body))
  {
    if code == 404 then Some(ObjectNotFound(body))
    else if code == 403 then Some(Forbidden(body))
    else if code == 401 then Some(Unauthorized(body))
    else if 400 <= code < 600 then Some(UnknownError(status + ": " + body))
    else None
  }

  /** The calls the managers make; paths are relative to the base URL. */
  datatype Request =
    | GetDatasource(name: string)                                  // GET /datasources/{name}
    | ListDatasources                                              // GET /datasources
    | PostDatasource(config: Object)                               // POST /datasources
    | DeleteDatasource(name: string)                               // DELETE /datasources/{name}
    | GetMind(project: string, name: string)                       // GET /projects/{project}/minds/{name}
    | ListMinds(project: string)                                   // GET /projects/{project}/minds
    | PostMind(project: string, payload: Object)                   // POST /projects/{project}/minds
    | PatchMind(project: string, name: string, payload: Object)    // PATCH /projects/{project}/minds/{name}
    | DeleteMind(project: string, name: string)                    // DELETE /projects/{project}/minds/{name}
    | AttachDatasource(project: string, mind: string, datasource: string)  // POST .../minds/{mind}/datasources
    | DetachDatasource(project: string, mind: string, datasource: string)  // DELETE .../minds/{mind}/datasources/{ds}

  /**
   * A completed HTTP response: the code, the status line ("404 Not Found"),
   * the body text, and the body decoded as JSON (`None` when it is not JSON).
   */
  datatype Response = Response(code: int, status: string, body: string, doc: Option<Value>)

  /** What the transport hands back: a response, or a failure before one arrived. */
  datatype Reply = Delivered(response: Response) | Failed(error: Error)

  /**
   * A transport call as the helpers are written: the translator is called
   * and its result dropped, so every delivered response comes back as a
   * success.
   */
  function CallAsWritten(reply: Reply): (r: Result<Response, Error>)
    ensures r.Failure? <==> reply.Failed?
    ensures r.Success? ==> r.value == reply.response
  {
    match reply
    case Failed(e) => Failure(e)
    case Delivered(resp) =>
      var _ := RaiseForStatus(resp.code, resp.status, resp.body);
      Success(resp)
  }

  /**
   * A transport call with the status translator's result returned: every
   * helper calls `_raiseForStatus` (rest_api.go:54, 69, 89, 109), and the
   * managers' not-found branches only make sense when its error reaches
   * them. Transport failures and translated statuses come back as errors,
   * anything else as the response.
   */
  function Call(reply: Reply): (r: Result<Response, Error>)
    ensures reply.Failed? ==> r == Failure(reply.error)
    ensures reply.Delivered? ==>
      var resp := reply.response;
      match RaiseForStatus(resp.code, resp.status, resp.body)
      case Some(k) => r == Failure(Api(k))
      case None => r == Success(resp)
    ensures r.Success? ==> !(400 <= r.value.code < 600)
  {
    match reply
    case Failed(e) => Failure(e)
    case Delivered(resp) =>
      match RaiseForStatus(resp.code, resp.status, resp.body)
      case Some(k) => Failure(Api(k))
      case None => Success(resp)
  }
}

=== FILE: rest_api_facts.dfy ===
/** Properties of the REST layer that relate several calls. */
module RestApiFacts {
  import opened Wrappers
  import opened Exceptions
  import opened RestApi

  /** The (possibly defaulted) input is a prefix of the normalised URL, which always ends in "api/". */
  lemma NewRestApiExtends(apiKey: string, baseUrl: string)
    requires NewRestApi(apiKey, baseUrl).Some?
    ensures WithDefault(baseUrl) <= NewRestApi(apiKey, baseUrl).value.baseUrl
    ensures EndsWith(NewRestApi(apiKey, baseUrl).value.baseUrl, "api/")
  {
    var u := WithSlash(WithDefault(baseUrl));
    var r := NewRestApi(apiKey, baseUrl).value.baseUrl;
    assert r == u + "api/";
    assert WithDefault(baseUrl) <= u;
    assert u <= r;
    assert r[|r| - 4..] == "api/";
  }

  /** A URL that already ends in "/api/" still gets a second "api/" as written. */
  lemma NewRestApiDuplicatesApi()
    ensures NewRestApi("key", "https://mdb.ai/api/") == Some(ApiClient("key", "https://mdb.ai/api/api/"))
  {
    var u := "https://mdb.ai/api/";
    assert u[|u| - 1] == '/';
    assert WithSlash(WithDefault(u)) == u;
    assert u + "api/" == "https://mdb.ai/api/api/";
  }

  /** An empty base URL is the hosted service's, normalised as written. */
  lemma NewRestApiDefault(apiKey: string)
    ensures NewRestApi(apiKey, "") == Some(ApiClient(apiKey, "https://mdb.ai/api/"))
  {
    var u := "https://mdb.ai/";
    assert WithSlash(WithDefault("")) == u;
    assert |u| == 15;
    assert u + "api/" == "https://mdb.ai/api/";
  }

  /**
   * The panic edge counts bytes, as Go's `len` does: "éé" is two characters
   * but four bytes, so it is accepted and normalised.
   */
  lemma NewRestApiCountsBytes(apiKey: string)
    ensures NewRestApi(apiKey, "\U{e9}\U{e9}") == Some(ApiClient(apiKey, "\U{e9}\U{e9}/api/"))
    ensures NewRestApi(apiKey, "ab") == None
  {
    var u := "\U{e9}\U{e9}/";
    assert WithSlash(WithDefault("\U{e9}\U{e9}")) == u;
    assert u[1..][1..][1..] == [];
    assert Utf8Len(u) == 5 by {
      assert Utf8Width(u[0]) == 2 && Utf8Width(u[1..][0]) == 2 && Utf8Width(u[1..][1..][0]) == 1;
    }
    assert u + "api/" == "\U{e9}\U{e9}/api/";
    assert WithSlash(WithDefault("ab")) == "ab/";
    assert "ab/"[1..][1..][1..] == [];
  }

  /** As written, normalising twice differs from normalising once. */
  lemma NewRestApiNotIdempotent(apiKey: string, baseUrl: string)
    requires NewRestApi(apiKey, baseUrl).Some?
    ensures NewRestApi(apiKey, NewRestApi(apiKey, baseUrl).value.baseUrl).Some?
    ensures NewRestApi(apiKey, NewRestApi(apiKey, baseUrl).value.baseUrl).value.baseUrl
         != NewRestApi(apiKey, baseUrl).value.baseUrl
  {
    var once := NewRestApi(apiKey, baseUrl).value.baseUrl;
    assert once[|once| - 1] == '/';
    assert WithSlash(WithDefault(once)) == once;
  }

  /** The intended normalisation is idempotent: a normalised URL is left alone. */
  lemma NormalizeIntendedIdempotent(baseUrl: string)
    ensures NormalizeIntended(NormalizeIntended(baseUrl)) == NormalizeIntended(baseUrl)
  {
    var u := NormalizeIntended(baseUrl);
    assert u[|u| - 1] == u[|u| - 5..][4] == '/';
    assert WithSlash(WithDefault(u)) == u;
  }

  /** The intended and the as-written normalisation agree whenever the URL does not already end in "/api/". */
  lemma NormalizeAgreesOffApi(apiKey: string, baseUrl: string)
    requires !EndsWith(WithSlash(WithDefault(baseUrl)), "/api/")
    requires NewRestApi(apiKey, baseUrl).Some?
    ensures NewRestApi(apiKey, baseUrl).value == NewRestApiIntended(apiKey, baseUrl)
  {
  }

  /** The API key is recoverable from the Authorization header. */
  lemma HeadersCarryKey(apiKey: string)
    ensures BearerKey(Headers(apiKey)[AuthorizationHeader]) == Some(apiKey)
    ensures Headers(apiKey)[AuthorizationHeader] == "Bearer " + apiKey
  {
    var v := Headers(apiKey)[AuthorizationHeader];
    assert BearerPrefix <= v;
    assert v[|BearerPrefix|..] == apiKey;
  }

  /**
   * The translator read backwards: each error it produces pins the status
   * code (or its range) and carries the body verbatim.
   */
  lemma RaiseForStatusInverse(code: int, status: string, body: string)
    ensures match RaiseForStatus(code, status, body)
      case None => code < 400 || code >= 600
      case Some(ObjectNotFound(m)) => code == 404 && m == body
      case Some(Forbidden(m)) => code == 403 && m == body
      case Some(Unauthorized(m)) => code == 401 && m == body
      case Some(UnknownError(m)) => 400 <= code < 600 && code !in {401, 403, 404} && m == status + ": " + body
      case Some(ObjectNotSupported(_)) => false
  {
  }

  /**
   * As written, an error status passes the helpers as a success, where the
   * translator would have turned it into an error: a 404, for one.
   */
  lemma CallAsWrittenPassesErrors(resp: Response)
    requires 400 <= resp.code < 600
    ensures CallAsWritten(Delivered(resp)) == Success(resp)
    ensures Call(Delivered(resp)).Failure? && Call(Delivered(resp)).error.Api?
  {
  }

  /** The two calls agree exactly on the responses the translator lets through. */
  lemma CallAgreesBelowErrors(reply: Reply)
    ensures Call(reply) == CallAsWritten(reply) <==>
      reply.Failed? || !(400 <= reply.response.code < 600)
  {
  }

  /** A concrete instance: the 404 a missing object is answered with. */
  lemma CallAsWrittenAcceptsNotFound()
    ensures var resp := Response(404, "404 Not Found", "no such datasource", None);
      CallAsWritten(Delivered(resp)).Success?
      && Call(Delivered(resp)) == Failure(Api(ObjectNotFound("no such datasource")))
  {
  }
}

=== FILE: server.dfy ===
/**
 * The remote service the managers talk to, as an environment for the
 * model: a JSON document store for data sources and for each project's
 * minds, a script of replies that override the store's own (to inject
 * transport failures and error statuses anywhere in a call sequence), and
 * the log of every request issued. None of this is client code; it gives
 * the managers' request sequences a concrete meaning.
 */
module Server {
  import opened Wrappers
  import opened Json
  import opened Exceptions
  import opened RestApi

  /** One collection: records by name, and the order the server lists them in. */
  datatype Table = Table(rows: map<string, Value>, order: seq<string>)

  const EmptyTable := Table(map[], [])

  /** `xs` with every occurrence of `x` removed, order kept. */
  function Without<T(==,!new)>(xs: seq<T>, x: T): (r: seq<T>)
    ensures forall y :: y in r <==> y in xs && y != x
    ensures |r| <= |xs|
  {
    if |xs| == 0 then []
    else (if xs[0] == x then [] else [xs[0]]) + Without(xs[1..], x)
  }

  /** The records named in `order`, in that order, skipping names without a record. */
  function Rows(rows: map<string, Value>, order: seq<string>): (r: seq<Value>)
    ensures |r| <= |order|
  {
    if |order| == 0 then []
    else (if order[0] in rows then [rows[order[0]]] else []) + Rows(rows, order[1..])
  }

  /** The listing the server returns for a collection. */
  function Listing(t: Table): seq<Value> {
    Rows(t.rows, t.order)
  }

  /** Stores `v` under `k`; a new name goes to the end of the listing. */
  function Insert(t: Table, k: string, v: Value): (r: Table)
    ensures r.rows == t.rows[k := v]
  {
    Table(t.rows[k := v], if k in t.order then t.order else t.order + [k])
  }

  /** Removes the record named `k`. */
  function Erase(t: Table, k: string): (r: Table)
    ensures r.rows == t.rows - {k}
  {
    Table(t.rows - {k}, Without(t.order, k))
  }

  /** Everything the server holds: the data sources and each project's minds. */
  datatype Store = Store(datasources: Table, projects: map<string, Table>)

  function MindsOf(s: Store, project: string): Table {
    if project in s.projects then s.projects[project] else EmptyTable
  }

  function WithMinds(s: Store, project: string, t: Table): Store {
    s.(projects := s.projects[project := t])
  }

  /** The members of a stored record; a record that is not an object has none. */
  function FieldsOf(v: Value): Object {
    if v.Obj? then v.fields else map[]
  }

  /** The names in a mind record's "datasources" member. */
  function AttachedOf(o: Object): seq<Value> {
    if "datasources" in o && o["datasources"].Arr? then o["datasources"].items else []
  }

  function StatusLine(code: int): string {
    if code == 200 then "200 OK"
    else if code == 201 then "201 Created"
    else if code == 400 then "400 Bad Request"
    else if code == 404 then "404 Not Found"
    else "409 Conflict"
  }

  /** A success carrying a JSON document (its text is not modelled). */
  function Ok(code: int, doc: Value): Response {
    Response(code, StatusLine(code), "", Some(doc))
  }

  /** An error status whose body is a short explanation. */
  function Problem(code: int, detail: string): Response {
    Response(code, StatusLine(code), detail, Some(Obj(map["detail" := Str(detail)])))
  }

  datatype Served = Served(store: Store, response: Response)

  /** Whether a request is about data sources (as opposed to minds). */
  predicate IsDatasourceRequest(req: Request) {
    req.GetDatasource? || req.ListDatasources? || req.PostDatasource? || req.DeleteDatasource?
  }

  /** Whether a request only reads. */
  predicate IsRead(req: Request) {
    req.GetDatasource? || req.ListDatasources? || req.GetMind? || req.ListMinds?
  }

  /** How the server answers a request and what it keeps afterwards. */
  function Serve(s: Store, req: Request): (r: Served)
    ensures IsRead(req) ==> r.store == s
    ensures IsDatasourceRequest(req) ==> r.store.projects == s.projects
    ensures !IsDatasourceRequest(req) ==> r.store.datasources == s.datasources
    ensures req.DeleteDatasource? ==>
      r.store.datasources.rows - {req.name} == s.datasources.rows - {req.name}
    ensures req.PostDatasource? && HasString(req.config, "name") ==>
      r.store.datasources.rows - {req.config["name"].s} == s.datasources.rows - {req.config["name"].s}
    ensures req.PostDatasource? && !HasString(req.config, "name") ==> r.store == s
  {
    match req
    case GetDatasource(name) =>
      if name in s.datasources.rows then Served(s, Ok(200, s.datasources.rows[name]))
      else Served(s, Problem(404, "datasource not found"))
    case ListDatasources =>
      Served(s, Ok(200, Arr(Listing(s.datasources))))
    case PostDatasource(config) =>
      if !HasString(config, "name") then Served(s, Problem(400, "invalid datasource"))
      else
        var name := config["name"].s;
        if name in s.datasources.rows then Served(s, Problem(409, "datasource already exists"))
        else Served(s.(datasources := Insert(s.datasources, name, Obj(config))), Ok(200, Obj(config)))
    case DeleteDatasource(name) =>
      if name in s.datasources.rows then
        Served(s.(datasources := Erase(s.datasources, name)), Ok(200, Null))
      else Served(s, Problem(404, "datasource not found"))
    case GetMind(project, name) =>
      var t := MindsOf(s, project);
      if name in t.rows then Served(s, Ok(200, t.rows[name]))
      else Served(s, Problem(404, "mind not found"))
    case ListMinds(project) =>
      Served(s, Ok(200, Arr(Listing(MindsOf(s, project)))))
    case PostMind(project, payload) =>
      var t := MindsOf(s, project);
      if !HasString(payload, "name") then Served(s, Problem(400, "invalid mind"))
      else
        var name := payload["name"].s;
        if name in t.rows then Served(s, Problem(409, "mind already exists"))
        else
          var record := Obj(payload["project" := Str(project)]);
          Served(WithMinds(s, project, Insert(t, name, record)), Ok(201, record))
    case PatchMind(project, name, payload) =>
      var t := MindsOf(s, project);
      if name !in t.rows then Served(s, Problem(404, "mind not found"))
      else
        var record := Obj(FieldsOf(t.rows[name]) + payload);
        var newName := if HasString(payload, "name") then payload["name"].s else name;
        if newName != name && newName in t.rows then Served(s, Problem(409, "mind already exists"))
        else Served(WithMinds(s, project, Insert(Erase(t, name), newName, record)), Ok(200, record))
    case DeleteMind(project, name) =>
      var t := MindsOf(s, project);
      if name in t.rows then Served(WithMinds(s, project, Erase(t, name)), Ok(200, Null))
      else Served(s, Problem(404, "mind not found"))
    case AttachDatasource(project, mind, datasource) =>
      var t := MindsOf(s, project);
      if mind !in t.rows || datasource !in s.datasources.rows then Served(s, Problem(404, "not found"))
      else
        var o := FieldsOf(t.rows[mind]);
        var attached := AttachedOf(o);
        var record := if Str(datasource) in attached then Obj(o)
                      else Obj(o["datasources" := Arr(attached + [Str(datasource)])]);
        Served(WithMinds(s, project, Insert(t, mind, record)), Ok(200, record))
    case DetachDatasource(project, mind, datasource) =>
      var t := MindsOf(s, project);
      if mind !in t.rows || Str(datasource) !in AttachedOf(FieldsOf(t.rows[mind])) then
        Served(s, Problem(404, "not found"))
      else
        var o := FieldsOf(t.rows[mind]);
        var record := Obj(o["datasources" := Arr(Without(AttachedOf(o), Str(datasource)))]);
        Served(WithMinds(s, project, Insert(t, mind, record)), Ok(200, record))
  }

  /**
   * The server as the client sees it: the store, the script of replies
   * still to be injected (one entry consumed per request; `Some` overrides
   * the store's answer and leaves the store alone), and the requests
   * issued so far.
   */
  datatype Net = Net(store: Store, script: seq<Option<Reply>>, log: seq<Request>)

  /** Whether the next request's reply is injected by the script. */
  predicate Injected(n: Net) {
    |n.script| > 0 && n.script[0].Some?
  }

  datatype Exchanged = Exchanged(net: Net, reply: Reply)

  /** Issues one request: logs it, consumes one script entry, and answers it. */
  function Exchange(n: Net, req: Request): (x: Exchanged)
    ensures x.net.log == n.log + [req]
    ensures n.script == [] ==> x.net.script == []
    ensures Injected(n) ==> x.net.store == n.store && x.reply == n.script[0].value
    ensures !Injected(n) ==> x.net.store == Serve(n.store, req).store
    ensures !Injected(n) ==> x.reply == Delivered(Serve(n.store, req).response)
  {
    var rest := if |n.script| == 0 then [] else n.script[1..];
    if Injected(n) then Exchanged(Net(n.store, rest, n.log + [req]), n.script[0].value)
    else
      var served := Serve(n.store, req);
      Exchanged(Net(served.store, rest, n.log + [req]), Delivered(served.response))
  }

  /** What a manager call leaves behind: the server after its requests, and its result. */
  datatype Outcome<T> = Outcome(net: Net, result: Result<T, Error>)

  /** The requests a call issued after starting from `before`. */
  function Issued(before: Net, after: Net): seq<Request>
    requires before.log <= after.log
  {
    after.log[|before.log|..]
  }
}

=== FILE: wrappers.dfy ===
/** Option and Result, the two failure-compatible wrappers the model is written with. */
module Wrappers {

  /** A value that may be absent; models Go's nil. */
  datatype Option<+T> = None | Some(value: T) {

    /** The carried value, or `default` when there is none. */
    function GetOr(default: T): T {
      match this
      case Some(v) => v
      case None => default
    }
  }

  /** Either a value or an error; usable with `:-`. */
  datatype Result<+T, +E> = Success(value: T) | Failure(error: E) {

    predicate IsFailure() {
      Failure?
    }

    function PropagateFailure<U>(): Result<U, E>
      requires Failure?
    {
      Failure(error)
    }

    function Extract(): T
      requires Success?
    {
      value
    }
  }
}
